=== FILE: README.md ===
# Remotion media parser: ISO box parsing, track and codec derivation, and converter bookkeeping

This project models, in Dafny, the core of Remotion's media parsing and conversion pipeline. It covers:

- **The incremental ISO Base Media (MP4/MOV) box parser** of `@remotion/media-parser`.
  - `processBox` decodes one box at the cursor of a partially buffered file. It reads the 32- or 64-bit size header, handles the 4-byte void marker, and rewinds on an incomplete header or box. For an oversized `mdat` it decides between skipping (with a seek request), partial payload parsing and suspension. Otherwise it dispatches on the type tag to a field decoder, to `parseMebx`, or to child parsing.
  - `parseIsoBaseMediaBoxes` drives `processBox` in a loop. It owns the suspend / seek / resume protocol. Each `continueParsing` closure becomes a `Resume` value, and `Continue` runs it.
  - When an `mdat` already existed at entry, a newly completed `mdat` replaces it.
  - The final check decides whether a skipped or buffered `mdat` must be revisited.
- **The container dispatch** of `parseVideo`.
- **The RIFF chunk dispatch** of `parseRiffBox`.
- **Track derivation** (`getTracks`, `hasTracks`, `getNumberOfTracks`): the split of tracks into video, audio and other lists.
- **Codec derivation** (`getVideoCodec` and its per-container helpers): the ISO sample-entry, Matroska CodecID and AVI stream-header tables, the codec configuration record (`getVideoPrivateData`, `getVideoCodecString`) and the colour parameters (`getIsoBmColrConfig`).
- **The WebCodecs I/O synchronizer**: the bookkeeping of unanswered inputs, keyframes and unprocessed outputs.
- **The converter's per-track operation lists** (`getSupportedConfigs`).

The modules follow the source files:

- `Cursor`: the buffer iterator, as a window of bytes, an absolute start offset, a position, and whether the source can serve byte ranges.
- `IsoBox`: the box tree and the traversal helpers.
- `Containers`: the Matroska / RIFF shapes and `Structure`.
- `IsoParser`: `process-box.ts` and `stsd/mebx.ts`.
- `Tracks`: `get-tracks.ts`.
- `VideoCodecs`: `get-video-codec.ts`.
- `ParseVideo`: `parse-video.ts`.
- `RiffChunks`: `parse-riff-box.ts`.
- `IoSynchronizer`: `io-synchronizer.ts`.
- `SupportedConfigs`: `get-supported-configs.tsx`.

Properties are proved in `HeaderProperties` (single-box decoder), `DriverProperties` (the loop) and `Scenarios` (concrete runs on small buffers).

Exceptions are `Err` values of a `Result`. The parsers are pure functions: each returns its result with the advanced cursor. The parser recursion goes `processBox` → `getChildren` / `parseMebx` → `parseIsoBaseMediaBoxes`. It is a mutual recursion and terminates on the buffered bytes still ahead of the cursor.

Collaborators the core calls but does not define are function-valued parameters:

- the field decoders of the leaf boxes (`ftyp`, `moov`, `trak`, `stsd`, …);
- `parseMdat`;
- `makeBaseMediaTrack`, `getTracksFromMatroska`, `getTracksFromAvi` and `hasAllTracksFromAvi`;
- `parseAv1PrivateData`;
- the RIFF chunk decoders;
- the platform capability queries of the converter (`canCopy*`, `canReencode*`, `getAvailable*Codecs`).

`hasVideoCodec` (`packages/media-parser/src/get-video-codec.ts:176-181`) is `hasTracks` under another name, so `Tracks.HasTracks` models both.

## Model

| member | source | states |
|---|---|---|
| IsoParser.ReadHeader | packages/media-parser/src/boxes/iso-base-media/process-box.ts:151-187 | The header is short exactly when fewer than 4 bytes follow the size field (12 when the size is 1), and a short header leaves the cursor at the box start. A size of 0 is a void marker whose type is not read (4 bytes). A size of 1 takes the size from the 8 bytes after the type (16-byte header); otherwise the 32-bit field is the size (8-byte header). |
| IsoParser.IncompleteOrThrow | packages/media-parser/src/boxes/iso-base-media/process-box.ts:161-170 | Succeeds exactly when incomplete boxes are allowed, answering `incomplete` at the rewound cursor. Otherwise it is the "Incomplete boxes are not allowed" error carrying the buffered bytes and the size read. |
| IsoParser.ParseMdatPartially | packages/media-parser/src/boxes/iso-base-media/process-box.ts:92-134 | Fails exactly when `parseMdat` answers nothing. The cursor advances by what `parseMdat` read. The box is complete exactly when the payload was processed or buffered and the cursor stands at the box end; otherwise the result is a partial `mdat` carrying the box's size and offset. |
| IsoParser.ProcessBox | packages/media-parser/src/boxes/iso-base-media/process-box.ts:136-239 | The cursor never moves back and stays on the same source. A completed box consumes at least 4 bytes. `incomplete` leaves the cursor at the box start. |
| IsoParser.DecodeBox | packages/media-parser/src/boxes/iso-base-media/process-box.ts:241-627 | A decoded body always yields a complete box of the size the header declared, reads forward, and never requests a seek. |
| IsoParser.ParseIsoBaseMediaBoxes | packages/media-parser/src/boxes/iso-base-media/process-box.ts:629-660 | The parse reads forward from its entry cursor and stays on the same source, whatever the ceiling and the entry boxes. |
| IsoParser.Oversized | packages/media-parser/src/boxes/iso-base-media/process-box.ts:189-238 | Handling a box larger than the buffered bytes (skip, partial `mdat`, `incomplete` or error) never moves the cursor before the box start and stays on the same source. Its branches are stated by `HeaderProperties.MdatSkipRule` and `HeaderProperties.OversizedBoxRule`. |
| IsoParser.GetChildren | packages/media-parser/src/boxes/iso-base-media/process-box.ts:39-90 | Parsing or discarding a box body reads forward on the same source. Its branches are stated by `HeaderProperties.UnknownBoxBody`. |
| IsoParser.ParseMebx | packages/media-parser/src/boxes/iso-base-media/stsd/mebx.ts:14-55 | Parsing a `mebx` body reads forward on the same source. Its layout is stated by `HeaderProperties.MebxLayout`. |
| IsoParser.Loop | packages/media-parser/src/boxes/iso-base-media/process-box.ts:655-783 | Whatever the loop returns, its cursor is no earlier than where the loop started, on the same source. |
| IsoParser.Iterate | packages/media-parser/src/boxes/iso-base-media/process-box.ts:659-783 | An iteration that continues has moved the cursor strictly forward. One that ends with a result leaves the cursor no earlier than where it started. |
| IsoParser.Step | packages/media-parser/src/boxes/iso-base-media/process-box.ts:659-675 | Continuing a partial `mdat` never reports `incomplete`. An `incomplete` answer leaves the cursor unmoved. A completed box from `processBox` consumes at least 4 bytes. |
| IsoParser.FinalStatus | packages/media-parser/src/boxes/iso-base-media/process-box.ts:785-821 | The pass is done exactly when there is no `mdat`, or the first `mdat` was neither skipped-but-needed (video data needed and range requests possible) nor buffered-but-needed. Otherwise the pass suspends. Its resume disallows incomplete boxes and seeks back to a buffered `mdat` before parsing. It requests a seek to a skipped one. |
| IsoParser.Continue | packages/media-parser/src/boxes/iso-base-media/process-box.ts:682-697 | Running a resume state without a pending seek reads forward from the cursor it is given. |
| HeaderProperties.UintRoundTrip | packages/media-parser/src/boxes/iso-base-media/process-box.ts:187 | Big-endian decoding inverts big-endian encoding for any value that fits the width. |
| HeaderProperties.HeaderRoundTrip | packages/media-parser/src/boxes/iso-base-media/process-box.ts:154-187 | Reading a header encoded as section 4.2 of ISO/IEC 14496-12 lays it out gives back its type and size and stops right after it. This holds in both the compact form and the size-1 form with a 64-bit size. |
| HeaderProperties.ShortHeaderRewinds | packages/media-parser/src/boxes/iso-base-media/process-box.ts:154-171 | With a short header the decoder answers `incomplete` at the box start when allowed. Otherwise it is the error carrying the buffered bytes and the size field. |
| HeaderProperties.VoidMarker | packages/media-parser/src/boxes/iso-base-media/process-box.ts:173-183 | A zero size field yields the void box, with 4 bytes consumed. |
| HeaderProperties.ReportsDeclaredSize | packages/media-parser/src/boxes/iso-base-media/process-box.ts:185-239 | Every completed non-void box reports the size its header declares, from the 64-bit field when the 32-bit one is 1. A partial `mdat` records that size and the box's own offset. |
| HeaderProperties.MdatSkipRule | packages/media-parser/src/boxes/iso-base-media/process-box.ts:189-216 | An oversized `mdat` is recorded as skipped, with a seek to its end, if and only if skipping is allowed and more than 1,000,000 bytes would be skipped. Skipping is allowed when video data is not needed or the tracks are not all known, and the source can serve ranges. |
| HeaderProperties.OversizedBoxRule | packages/media-parser/src/boxes/iso-base-media/process-box.ts:189-238 | An oversized `mdat` that may not be skipped goes to partial payload parsing. A skippable `mdat` at or under the threshold, and every other oversized box, is `incomplete` at the box start, or an error when that is disallowed. |
| HeaderProperties.BufferedDispatch | packages/media-parser/src/boxes/iso-base-media/process-box.ts:185-240 | A box whose whole extent is buffered is dispatched on its type tag, with the cursor just past its header and the box's own offset and declared size. |
| HeaderProperties.UnknownBoxBody | packages/media-parser/src/boxes/iso-base-media/process-box.ts:39-90 | The body of a box with no field decoder is parsed as children only for the eight container types. Incomplete boxes are disallowed there, the ceiling is the rest of the body, and an incomplete child parse is an error. Any other body is discarded whole, and a declared size smaller than the header is the "Box size is too big" error. |
| HeaderProperties.DecodeUnknown | packages/media-parser/src/boxes/iso-base-media/process-box.ts:603-627 | A box without a field decoder becomes a regular box of its type, size and offset. Its children are whatever the body yields, and the body's byte count is the declared size minus the bytes read since the box start. |
| HeaderProperties.SkipOnlyWithContentRange | packages/media-parser/src/boxes/iso-base-media/process-box.ts:199-216 | The decoder requests a seek only for a skipped `mdat`, and only when the source can serve ranges. |
| HeaderProperties.NoIncompleteWhenDisallowed | packages/media-parser/src/boxes/iso-base-media/process-box.ts:157-238 | With incomplete boxes disallowed, the decoder never answers `incomplete`. |
| HeaderProperties.MebxLayout | packages/media-parser/src/boxes/iso-base-media/stsd/mebx.ts:14-55 | `parseMebx` skips 6 reserved bytes and reads the 16-bit data reference index. It parses the children with incomplete boxes disallowed, under a ceiling equal to the bytes read since the box start. An incomplete child parse is an error; otherwise the result is a `mebx` box of the given size, offset and index with those children. |
| HeaderProperties.MebxDispatch | packages/media-parser/src/boxes/iso-base-media/process-box.ts:416-431 | A buffered `mebx` box is decoded by `parseMebx` from just past its header, at its own offset and size. |
| HeaderProperties.LeafBody | packages/media-parser/src/boxes/iso-base-media/process-box.ts:241-575 | A buffered box with one of the 23 field-decoder tags goes to its decoder with exactly its body bytes, at its own offset and declared size. Parsing resumes right after the body, at the box end whenever the declared size covers the header. |
| HeaderProperties.BufferedMdat | packages/media-parser/src/boxes/iso-base-media/process-box.ts:580-601 | A buffered `mdat` is handed to `parseMdat` just past its header. A null answer is the "Unexpected null" error. Otherwise it is a complete `mdat` of the declared size and offset with the status `parseMdat` reports, and parsing resumes after the bytes it read. |
| DriverProperties.ReplacementLeavesOneMdat | packages/media-parser/src/boxes/iso-base-media/process-box.ts:723-726 | Filtering out the `mdat` boxes and appending the new one leaves exactly one `mdat`, and every other box is unchanged. |
| DriverProperties.IterateKeepsBoxes | packages/media-parser/src/boxes/iso-base-media/process-box.ts:676-783 | An iteration either appends exactly the box the decoder completed after the existing ones, moves to the cursor the decoder left, and that box is not an `mdat` when one existed at entry; or it ends the pass with a result that keeps the boxes. |
| DriverProperties.LoopKeepsBoxes | packages/media-parser/src/boxes/iso-base-media/process-box.ts:655-821 | The non-`mdat` boxes the loop started with are a prefix of those it ends with. Without an `mdat` at entry, every earlier box is kept in place; with one, the `mdat` count stays the same or becomes exactly one. A suspension's resume state holds exactly the boxes it reports. |
| DriverProperties.ProcessBoxErrors | packages/media-parser/src/boxes/iso-base-media/process-box.ts:136-627 | The single-box decoder, at any depth of nesting, never raises a driver-misuse error: seek without range support, finite ceiling with an incomplete box, or stalled loop. |
| DriverProperties.ParseErrors | packages/media-parser/src/boxes/iso-base-media/process-box.ts:629-783 | The driver never raises the seek-without-range-support error. It raises "maxBytes must be Infinity" only under a finite ceiling with incomplete boxes allowed, and stalls only while continuing a partial `mdat`. |
| DriverProperties.LoopErrors | packages/media-parser/src/boxes/iso-base-media/process-box.ts:655-783 | The same restriction on errors holds for the loop from any state. |
| DriverProperties.IterateErrors | packages/media-parser/src/boxes/iso-base-media/process-box.ts:676-761 | The same restriction on errors holds for one iteration. |
| DriverProperties.MdatReplacesEarlier | packages/media-parser/src/boxes/iso-base-media/process-box.ts:723-732 | When an `mdat` existed at entry, a completed `mdat` that was not fully processed is the "unexpected" error. A fully processed one replaces every earlier `mdat`, leaves exactly one, and ends the loop at the cursor after it. |
| DriverProperties.ParseKeepsInitialBoxes | packages/media-parser/src/boxes/iso-base-media/process-box.ts:629-653 | The boxes given at entry are kept: in place when none is an `mdat`, and with exactly one `mdat` remaining when exactly one was given. |
| DriverProperties.ResumeIsAdditive | packages/media-parser/src/boxes/iso-base-media/process-box.ts:682-697 | Resuming a suspended parse whose boxes hold no `mdat` keeps those boxes as a prefix of the new result. |
| Scenarios.TruncatedHeaderSuspends | packages/media-parser/src/boxes/iso-base-media/process-box.ts:676-698 | On three buffered bytes the top-level parse suspends with no boxes and nothing consumed. Its resume state carries no boxes, allows incomplete boxes and requests no seek. |
| Scenarios.ResumedPassCompletes | packages/media-parser/src/boxes/iso-base-media/process-box.ts:682-697 | Resuming over a buffer that now holds the whole 8-byte `free` box completes it and ends with `done`. |
| Scenarios.VoidMarkerThenBox | packages/media-parser/src/boxes/iso-base-media/process-box.ts:173-183 | A zero size field followed by a `free` box parses as a void box and then the `free` box at offset 4. |
| ParseVideo.ParseVideo | packages/media-parser/src/parse-video.ts:27-70 | An empty buffer is the "no bytes" error. After that the signatures are tried in the order RIFF, ISO Base Media, WebM, MP3, and the first that matches decides. The ISO branch is the top-level parse: no boxes, no ceiling, incomplete boxes allowed. |
| ParseVideo.TopLevelParseHasNoProtocolErrors | packages/media-parser/src/parse-video.ts:46-58 | The top-level ISO parse never fails with a driver-misuse error. |
| ParseVideo.FiniteCeilingThrowsOnIncomplete | packages/media-parser/src/boxes/iso-base-media/process-box.ts:676-698 | The same incomplete first box throws "maxBytes must be Infinity" under a finite ceiling and suspends cleanly at top level. |
| RiffChunks.ParseRiffBox | packages/media-parser/src/boxes/riff/parse-riff-box.ts:10-52 | The chunk is consumed whole. `fmt` and `strf` go to their decoders with the chunk body and the chunks parsed before them. `LIST`, `avih` and `strh` go to their own decoders with the chunk body alone. A chunk id without a decoder becomes a plain chunk of that size and id. |
| RiffChunks.UnknownChunkIgnoresBody | packages/media-parser/src/boxes/riff/parse-riff-box.ts:43-51 | An undecoded chunk depends on nothing but its id and size, and parsing resumes right after it. |
| RiffChunks.OnlyFmtAndStrfSeeEarlierChunks | packages/media-parser/src/boxes/riff/parse-riff-box.ts:23-41 | Only the `fmt` and `strf` decoders see the chunks parsed before. |
| RiffChunks.ChunkDependsOnBodyOnly | packages/media-parser/src/boxes/riff/parse-riff-box.ts:23-51 | Every chunk is decided by its own `size` body bytes alone: the same body gives the same chunk, and both parses end the same distance after the chunk start. |
| Tracks.GetNumberOfTracks | packages/media-parser/src/get-tracks.ts:95-102 | The count is 0 without a movie header; otherwise it is one less than the header's next track id. |
| Tracks.HasTracks | packages/media-parser/src/get-tracks.ts:104-135 | ISO media has its tracks exactly when a `moov` holds as many `trak` boxes as announced. Matroska fails without a main segment; otherwise it has its tracks exactly when the segment holds a Tracks element. RIFF succeeds with exactly the answer of the AVI check (`hasAllTracksFromAvi`) on the RIFF boxes. |
| Tracks.HasIsoTracksStable | packages/media-parser/src/get-tracks.ts:117-128 | Once a `moov` is parsed, boxes parsed later never change the ISO answer. |
| Tracks.Partition | packages/media-parser/src/get-tracks.ts:194-200 | Pushes each track onto the list of its kind. What it computes is stated by `PartitionKeepsOrder`, `PartitionIsPermutation` and `PartitionKinds`. |
| Tracks.PartitionKeepsOrder | packages/media-parser/src/get-tracks.ts:188-201 | Each of the three lists is exactly the input's tracks of that kind, in input order. |
| Tracks.PartitionIsPermutation | packages/media-parser/src/get-tracks.ts:194-200 | Together the three lists are a permutation of the input: every track lands in exactly one list. |
| Tracks.PartitionKinds | packages/media-parser/src/get-tracks.ts:194-200 | Each list holds only tracks of its own kind. |
| Tracks.Derivable | packages/media-parser/src/get-tracks.ts:188-192 | At most one track per `trak` box. Every track is what the track builder made of some `trak` box, and every track the builder makes of a `trak` box is in the result. |
| Tracks.DerivableOne | packages/media-parser/src/get-tracks.ts:188-192 | A single `trak` yields its track when the builder makes one, and nothing when the builder answers null. |
| Tracks.DerivableAppend | packages/media-parser/src/get-tracks.ts:186-192 | The tracks of two consecutive runs of `trak` boxes are the runs' tracks concatenated. With `DerivableOne` this gives exactly one track per derivable `trak`, in `trak` order. |
| Tracks.GetTracksFromIsoBaseMedia | packages/media-parser/src/get-tracks.ts:172-208 | Without a `moov` the lists are empty. Otherwise the lists hold the tracks derived from the `moov`'s `trak` boxes, split by kind in `trak` order. |
| Tracks.GetTracksFromMatroska | packages/media-parser/src/get-tracks.ts:137-170 | Fails exactly when there is no main segment. Otherwise the main segment's tracks are split by kind in order. |
| Tracks.GetTracks | packages/media-parser/src/get-tracks.ts:210-227 | Dispatches on the container. Only Matroska can fail. |
| Tracks.IsoTracksAccountForDerivableTraks | packages/media-parser/src/get-tracks.ts:186-201 | Every derivable `trak` yields exactly one track in the result, and no track comes from anywhere else. |
| VideoCodecs.IsoFormatTable | packages/media-parser/src/get-video-codec.ts:31-81 | A sample-entry format names a codec exactly when it is in that codec's format set: `hvc1`, `avc1`, `av01`, or the eight ProRes formats. |
| VideoCodecs.GetVideoCodecFromIsoTrak | packages/media-parser/src/get-video-codec.ts:26-86 | Succeeds exactly when the track has a video sample entry with a recognised format, and then the format belongs to the returned codec. Otherwise it is "Could not find video codec". |
| VideoCodecs.MatroskaCodecTable | packages/media-parser/src/get-video-codec.ts:103-121 | A CodecID names a codec exactly when it is that codec's Matroska id. ProRes has none. |
| VideoCodecs.FirstEntryCodec | packages/media-parser/src/get-video-codec.ts:99-124 | The answer comes from the first track entry with a recognised video CodecID. There is none exactly when no entry has one. |
| VideoCodecs.GetVideoCodecFromMatroska | packages/media-parser/src/get-video-codec.ts:88-127 | The answer is none exactly when there is no Segment or no Tracks element in it. Otherwise the first entry with a recognised video CodecID decides. With no such entry it is the "Could not find video codec" error. |
| VideoCodecs.ScanStreams | packages/media-parser/src/get-video-codec.ts:132-147 | The scan stops at the first stream list that lacks a header ("No strh box") or is a non-audio H.264 stream (h264). With no such list it is "Unsupported codec". |
| VideoCodecs.ScanRest | packages/media-parser/src/get-video-codec.ts:138-145 | The scan continued past a stream that does not decide keeps the same first-decider contract. |
| VideoCodecs.GetVideoCodecFromAvi | packages/media-parser/src/get-video-codec.ts:129-148 | The result is h264 exactly when the first deciding stream list has a header. It is "Unsupported codec" exactly when no list decides. |
| VideoCodecs.GetVideoCodec | packages/media-parser/src/get-video-codec.ts:150-174 | ISO media has no codec exactly when there is no `moov` or no video track. Otherwise the codec comes from the first video `trak`, whose format belongs to that codec; when that format is not recognised the answer is "Could not find video codec". RIFF answers h264 exactly when the AVI lookup succeeds, and otherwise passes its error through. Matroska uses its own lookup. |
| VideoCodecs.GetVideoPrivateData | packages/media-parser/src/get-video-codec.ts:183-206 | There is no private data exactly when there is no video sample entry or none of `avcC`, `hvcC`, `av1C`. Any data returned is a configuration record's bytes. |
| VideoCodecs.GetVideoCodecString | packages/media-parser/src/get-video-codec.ts:256-280 | A string exists exactly when the track has a video sample entry. Without a configuration record the string is the bare format. |
| VideoCodecs.PrivateDataMatchesCodecString | packages/media-parser/src/get-video-codec.ts:183-280 | For a track with a video sample entry, the private data and the codec string come from the same record, with `avcC` before `hvcC` before `av1C`. The AV1 string is derived from the very bytes returned as private data. |
| VideoCodecs.ColorTables | packages/media-parser/src/get-video-codec.ts:229-252 | Each colour table and its reference table agree in both directions, and `rgb` is never produced. |
| VideoCodecs.ColorTableDomains | packages/media-parser/src/get-video-codec.ts:229-252 | Matrix and primaries name only 1, 5 and 6. Transfer names only 1, 6 and 13. |
| VideoCodecs.GetIsoBmColrConfig | packages/media-parser/src/get-video-codec.ts:208-254 | Parameters exist exactly when the video sample entry has a `colr` box of parametric type. They carry its full-range flag, and each parameter is named exactly when its code point is in the table. |
| IoSynchronizer.GetUnemittedItems | packages/webcodecs/src/io-manager/io-synchronizer.ts:30-35 | Replaces the inputs by exactly those later than the last output, in order and with repeats kept, and returns how many there are. Nothing else changes. |
| IoSynchronizer.GetUnemittedKeyframes | packages/webcodecs/src/io-manager/io-synchronizer.ts:37-42 | The same in-order filter and count, for keyframes. |
| IoSynchronizer.GettersIdempotent | packages/webcodecs/src/io-manager/io-synchronizer.ts:30-42 | Asking twice with no event in between gives the same count and state. |
| IoSynchronizer.PrintState | packages/webcodecs/src/io-manager/io-synchronizer.ts:44-49 | Building the trace message replaces both lists by their timestamps later than the last output, in order. Nothing else changes. |
| IoSynchronizer.InputItem | packages/webcodecs/src/io-manager/io-synchronizer.ts:51-66 | Appends the timestamp to the inputs, and to the keyframes when it is one, and counts one more input since the last output. Both lists are then exactly the appended lists filtered to timestamps later than the last output, in order. |
| IoSynchronizer.OnOutput | packages/webcodecs/src/io-manager/io-synchronizer.ts:68-76 | Records the output, resets the input run, and counts one more unprocessed output. Both lists are then exactly the old lists filtered to timestamps later than this output, in order. |
| IoSynchronizer.OnProcessed | packages/webcodecs/src/io-manager/io-synchronizer.ts:134-137 | One fewer output awaits processing. Nothing else changes. |
| IoSynchronizer.EventsKeepConsistent | packages/webcodecs/src/io-manager/io-synchronizer.ts:30-137 | Every event and getter keeps both lists pruned and every pending keyframe a pending input. |
| IoSynchronizer.ItemsGetterAloneSplitsLists | packages/webcodecs/src/io-manager/io-synchronizer.ts:30-35 | The items getter alone can leave a keyframe whose input was pruned. |
| IoSynchronizer.PrunedGettersChangeNothing | packages/webcodecs/src/io-manager/io-synchronizer.ts:30-42 | On a pruned state the getters only count. |
| IoSynchronizer.OutputDrainsQueue | packages/webcodecs/src/io-manager/io-synchronizer.ts:68-132 | An output no earlier than every pending input empties the queue. `waitForFinish`'s condition then holds exactly when the unprocessed count was negative before the output. |
| IoSynchronizer.IsFinished | packages/webcodecs/src/io-manager/io-synchronizer.ts:130-132 | `waitForFinish` is `waitFor` with both bounds 0. |
| IoSynchronizer.FinishedMeans | packages/webcodecs/src/io-manager/io-synchronizer.ts:100-132 | `waitForFinish` resolves exactly when no input is unanswered and the unprocessed count is zero or below, so a processed report that arrives before its output also finishes. |
| IoSynchronizer.InputCountsOne | packages/webcodecs/src/io-manager/io-synchronizer.ts:51-66 | After an input, the count `waitFor` compares is one more than before when the input is later than the last output, and unchanged otherwise. |
| IoSynchronizer.OneRoundTripFinishes | packages/webcodecs/src/io-manager/io-synchronizer.ts:51-137 | From the initial state, one input answered and processed at the same timestamp reaches the finished state. |
| SupportedConfigs.VideoTrackOperations | packages/convert/app/components/get-supported-configs.tsx:45-69 | The loop builds the reference list: copy if possible, one re-encode per accepted codec in codec order, then drop. |
| SupportedConfigs.AudioTrackOperations | packages/convert/app/components/get-supported-configs.tsx:80-108 | The same for audio, each re-encode carrying the requested bitrate. |
| SupportedConfigs.GetSupportedConfigs | packages/convert/app/components/get-supported-configs.tsx:29-116 | One option record per video and per audio track, in track order, each with the track's id and its operation list. |
| SupportedConfigs.VideoReencodesContents | packages/convert/app/components/get-supported-configs.tsx:55-66 | There is a re-encode for a codec exactly when it is available and accepted for the track, and nothing else is in the list. |
| SupportedConfigs.AudioReencodesContents | packages/convert/app/components/get-supported-configs.tsx:90-105 | The same for audio, every re-encode carrying the bitrate. |
| SupportedConfigs.VideoOperationsShape | packages/convert/app/components/get-supported-configs.tsx:45-69 | The list starts with copy exactly when the track can be copied. It holds re-encodes for exactly the accepted available codecs, and ends with its only drop, so it is never empty. |
| SupportedConfigs.AudioOperationsShape | packages/convert/app/components/get-supported-configs.tsx:80-108 | The same shape for audio, every re-encode carrying the requested bitrate. |

## Left out

- **Field decoders:** the box field decoders (`parseFtyp`, `parseMoov`, `parseTrak`, `parseStsd`, `parseMvhd`, …) and `parseMdat` are parameters. The model takes a leaf decoder to consume exactly the declared body, since their files are not part of this model.
- **Track construction:** `makeBaseMediaTrack`, `registerTrack`, `getTracksFromMatroska`, `getTracksFromAvi` and `hasAllTracksFromAvi` are parameters. The `trak` branch's track registration is a side effect on parser state, outside the box tree.
- **Buffer iterator:** its internals (`removeBytesRead`, `allowDiscard`, counter bookkeeping) are not modelled. The cursor exposes only offsets and reads. A read past the buffered window yields zero bytes. The header check rewinds before such a value is used.
- **Runtime concerns:** `async` / `await`, `AbortSignal`, logging levels and the event emitter are left out. They carry no data into the results modelled here.
- **`waitFor`, `waitForOutput`, `waitForProcessed`, `waitForFinish`:** these are promise plumbing over the getters. Only the condition their loops wait for is modelled (`WaitForSatisfied`, and `IsFinished` for `waitForFinish`). The progress tracker is not modelled.
- **IoSynchronizer:** timestamps are integers, so `Math.floor` is the identity. Fractional timestamps are not modelled.
- **Other container parsers:** `parseRiff`, `parseWebm` and `parseAv1PrivateData` are not part of this model. `ParseVideo` records which branch is taken for RIFF and WebM, and the AV1 codec string is a parameter.
- **IsoParser.Iterate:** the loop never clears `continueMdat` after a partial `mdat` completes, so the next iteration calls `parseMdat` again with the same box size and offset while the cursor already stands at the box end. The model stops with `NoProgress` when an iteration makes no progress. That can only happen while continuing a partial `mdat` (`DriverProperties.ParseErrors`).
- **IsoParser.ParseMdatPartially:** the source reads `.status` of a `null` answer, which throws a `TypeError`. It is modelled as the `UnexpectedNull` error.
- **Chunk-split equivalence:** the claim that parsing in several suspended passes yields the same boxes as one pass over the whole buffer is not proved in general. `ResumeIsAdditive` (boxes are kept across a resume) and the scenario lemmas are proved instead.
- **RiffChunks.ParseRiffBox:** every chunk decoder is taken to consume exactly `size` bytes. The list, `avih`, `strh`, `fmt` and `strf` decoders are parameters: their files are not part of this model. The model states which decoder each id reaches and what it is given, not what the decoders build.
- **SupportedConfigs:** `canCopyVideoTrack` / `canCopyAudioTrack` receive the whole track rather than just its `codecWithoutConfig`. `AudioTrack` carries no `codecWithoutConfig` field.
- **Traversal helpers:** the helpers the lookups call (`getMoovBox`, `getTraks`, `getStsdBox`, `getStsdVideoConfig`, `getAvccBox`, `getColrBox`, `trakBoxContainsVideo`, `getStrlBoxes`, `getStrhBox`, `getMainSegment`, `getTracksSegment`) live in files that are not part of this model. They are defined in `IsoBox` and `Containers` from their names and uses, as first-match searches.
- **ProRes formats:** the ProRes table has the eight formats the code tests (`ap4h`, `ap4x`, `apch`, `apcn`, `apcs`, `apco`, `aprh`, `aprn`).
- **Void box size:** the void box is recorded with `size` 4 as the code returns it. Its `boxSize: 0` field is implicit in the `VoidBox` variant.

=== FILE: containers.dfy ===
/**
 * The parsed structure of each container family (`Structure`), and the
 * Matroska and RIFF element shapes the track and codec lookups inspect.
 */
module Containers {
  import opened Wrappers
  import opened IsoBox

  /** The Matroska elements the lookups distinguish; every other element is `MkvOther`. */
  datatype MkvElement =
    | MkvSegment(elements: seq<MkvElement>)
    | MkvTracks(elements: seq<MkvElement>)
    | MkvTrackEntry(elements: seq<MkvElement>)
    | MkvCodecId(codecId: string)
    | MkvOther(name: string)

  /** RIFF chunks: lists with their list type, stream headers, decoded leaves and unknown chunks. */
  datatype RiffBox =
    | RiffList(listType: string, riffChildren: seq<RiffBox>)
    | StrhBox(fccType: string, handler: string)
    | RiffLeaf(id: string, size: nat)
    | RiffRegularBox(size: nat, id: string)

  datatype Structure =
    | IsoStructure(boxes: seq<Box>)
    | MatroskaStructure(segments: seq<MkvElement>)
    | RiffStructure(riffBoxes: seq<RiffBox>)

  /** `getMainSegment`: the first top-level Segment element. */
  function GetMainSegment(segments: seq<MkvElement>): (r: Option<MkvElement>)
    ensures r.Some? ==> r.value.MkvSegment? && r.value in segments
    ensures r.None? ==> forall e :: e in segments ==> !e.MkvSegment?
  {
    if |segments| == 0 then None
    else if segments[0].MkvSegment? then Some(segments[0])
    else GetMainSegment(segments[1..])
  }

  /** `getTracksSegment`: the first Tracks element inside the main segment. */
  function GetTracksSegment(main: MkvElement): (r: Option<MkvElement>)
    requires main.MkvSegment?
    ensures r.Some? ==> r.value.MkvTracks? && r.value in main.elements
    ensures r.None? ==> forall e :: e in main.elements ==> !e.MkvTracks?
  {
    FirstTracks(main.elements)
  }

  function FirstTracks(es: seq<MkvElement>): (r: Option<MkvElement>)
    ensures r.Some? ==> r.value.MkvTracks? && r.value in es
    ensures r.None? ==> forall e :: e in es ==> !e.MkvTracks?
  {
    if |es| == 0 then None else if es[0].MkvTracks? then Some(es[0]) else FirstTracks(es[1..])
  }

  /** The first CodecID element among the children of a track entry. */
  function FirstCodecId(es: seq<MkvElement>): (r: Option<string>)
    ensures r.Some? ==> MkvCodecId(r.value) in es
    ensures r.None? ==> forall e :: e in es ==> !e.MkvCodecId?
  {
    if |es| == 0 then None else if es[0].MkvCodecId? then Some(es[0].codecId) else FirstCodecId(es[1..])
  }

  /** `getStrlBoxes`: the `strl` lists of the first `hdrl` header list. */
  function GetStrlBoxes(boxes: seq<RiffBox>): seq<RiffBox> {
    match FirstList(boxes, "hdrl")
    case None => []
    case Some(hdrl) => Lists(hdrl.riffChildren, "strl")
  }

  function FirstList(bs: seq<RiffBox>, listType: string): (r: Option<RiffBox>)
    ensures r.Some? ==> r.value.RiffList? && r.value.listType == listType
  {
    if |bs| == 0 then None
    else if bs[0].RiffList? && bs[0].listType == listType then Some(bs[0])
    else FirstList(bs[1..], listType)
  }

  function Lists(bs: seq<RiffBox>, listType: string): (r: seq<RiffBox>)
    ensures forall b :: b in r ==> b.RiffList?
  {
    if |bs| == 0 then []
    else (if bs[0].RiffList? && bs[0].listType == listType then [bs[0]] else []) + Lists(bs[1..], listType)
  }

  /** `getStrhBox`: the first stream header among a list's children. */
  function GetStrhBox(bs: seq<RiffBox>): (r: Option<RiffBox>)
    ensures r.Some? ==> r.value.StrhBox? && r.value in bs
    ensures r.None? ==> forall b :: b in bs ==> !b.StrhBox?
  {
    if |bs| == 0 then None else if bs[0].StrhBox? then Some(bs[0]) else GetStrhBox(bs[1..])
  }
}

=== FILE: cursor.dfy ===
/**
 * The byte cursor the parsers read from (the media parser's
 * `BufferIterator`). Only what the box parsers observe is modelled: the buffered
 * window, the absolute offset of its first byte, the read position within
 * it, and whether the byte source can serve arbitrary ranges.
 */
module Cursor {

  newtype byte = b: int | 0 <= b < 256

  /** Big-endian value of a byte sequence. */
  function BigEndian(bs: seq<byte>): (r: nat)
    ensures r < Pow256(|bs|)
  {
    if |bs| == 0 then 0 else BigEndian(bs[..|bs| - 1]) * 256 + bs[|bs| - 1] as nat
  }

  function Pow256(n: nat): (r: nat)
    ensures r > 0
  {
    if n == 0 then 1 else 256 * Pow256(n - 1)
  }

  /** Characters of a byte string, one Latin-1 character per byte. */
  function Latin1(bs: seq<byte>): (s: string)
    ensures |s| == |bs|
    ensures forall i :: 0 <= i < |bs| ==> s[i] as int == bs[i] as int
  {
    if |bs| == 0 then "" else Latin1(bs[..|bs| - 1]) + [(bs[|bs| - 1] as int) as char]
  }

  datatype Cursor = Cursor(window: seq<byte>, start: nat, pos: nat, supportsContentRange: bool) {

    /** Absolute file offset of the next byte to be read (`counter.getOffset()`). */
    function Offset(): nat { start + pos }

    /** `bytesRemaining()`: negative once a discard went past the buffered window. */
    function BytesRemaining(): int { |window| - pos }

    /** Buffered bytes still ahead of the cursor, never negative; the termination measure of the parsers. */
    function Remaining(): nat { if pos <= |window| then |window| - pos else 0 }

    /** Byte at window index `i`; bytes past the window read as 0. */
    function ByteAt(i: nat): byte { if i < |window| then window[i] else 0 }

    /** The next `n` bytes (the buffered ones among them). */
    function Peek(n: nat): (bs: seq<byte>)
      ensures |bs| == n
      ensures forall k :: 0 <= k < n ==> bs[k] == ByteAt(pos + k)
    {
      seq(n, k requires 0 <= k < n => ByteAt(pos + k))
    }

    /** `discard(n)`: moves the cursor forward without reading. */
    function Discard(n: nat): (c: Cursor)
      ensures c.Offset() == Offset() + n
      ensures c.window == window && c.start == start && c.supportsContentRange == supportsContentRange
    {
      this.(pos := pos + n)
    }

    /** Reads an `n`-byte big-endian unsigned integer. */
    function ReadUint(n: nat): (r: (nat, Cursor))
      ensures r.0 == BigEndian(Peek(n)) && r.0 < Pow256(n)
      ensures r.1 == Discard(n)
    {
      (BigEndian(Peek(n)), Discard(n))
    }

    /** `getByteString(4)`: a four-character code. */
    function ReadFourCC(): (r: (string, Cursor))
      ensures |r.0| == 4 && r.1 == Discard(4)
      ensures forall k :: 0 <= k < 4 ==> r.0[k] as int == ByteAt(pos + k) as int
    {
      (Latin1(Peek(4)), Discard(4))
    }
  }

  /** Two cursors read the same buffered bytes of the same source. */
  predicate SameSource(a: Cursor, b: Cursor) {
    a.window == b.window && a.start == b.start && a.supportsContentRange == b.supportsContentRange
  }

  /**
   * Repositions the source at absolute offset `o` (the caller's response to
   * a seek request, and `iterator.skipTo`): the bytes buffered from `o` on
   * stay available.
   */
  function Seek(c: Cursor, o: nat): (r: Cursor)
    ensures r.Offset() == o && r.pos == 0 && r.supportsContentRange == c.supportsContentRange
    ensures forall k :: 0 <= k < |r.window| ==>
              0 <= o - c.start + k < |c.window| && r.window[k] == c.window[o - c.start + k]
  {
    var w := if c.start <= o <= c.start + |c.window| then c.window[o - c.start..] else [];
    Cursor(w, o, 0, c.supportsContentRange)
  }
}

=== FILE: driver_properties.dfy ===
/**
 * Properties of the tree-building driver: boxes are only ever appended (an
 * `mdat` arriving when one existed at entry replaces it), suspension hands
 * back the boxes accumulated so far, and the protocol errors are
 * unreachable from the arguments `parseIsoBaseMediaBoxes` is given.
 */
module DriverProperties {
  import opened Wrappers
  import opened Cursor
  import opened IsoBox
  import opened IsoParser
  import HeaderProperties

  lemma {:induction false} NonMdatAppend(a: seq<Box>, b: seq<Box>)
    ensures NonMdat(a + b) == NonMdat(a) + NonMdat(b)
    decreases |a|
  {
    if |a| > 0 {
      var h := if a[0].MdatBox? then [] else [a[0]];
      assert (a + b)[0] == a[0];
      assert (a + b)[1..] == a[1..] + b;
      calc {
        NonMdat(a + b);
        h + NonMdat(a[1..] + b);
        { NonMdatAppend(a[1..], b); }
        h + (NonMdat(a[1..]) + NonMdat(b));
        (h + NonMdat(a[1..])) + NonMdat(b);
      }
    } else {
      assert a + b == b;
    }
  }

  lemma {:induction false} CountMdatAppend(a: seq<Box>, b: seq<Box>)
    ensures CountMdat(a + b) == CountMdat(a) + CountMdat(b)
    decreases |a|
  {
    if |a| > 0 {
      assert (a + b)[1..] == a[1..] + b;
      CountMdatAppend(a[1..], b);
    } else {
      assert a + b == b;
    }
  }

  lemma {:induction false} NonMdatHasNone(a: seq<Box>)
    ensures CountMdat(NonMdat(a)) == 0
    ensures NonMdat(NonMdat(a)) == NonMdat(a)
    decreases |a|
  {
    if |a| > 0 {
      NonMdatHasNone(a[1..]);
      var h := if a[0].MdatBox? then [] else [a[0]];
      CountMdatAppend(h, NonMdat(a[1..]));
      NonMdatAppend(h, NonMdat(a[1..]));
    }
  }

  /** The single box list a replacement leaves: every earlier `mdat` dropped, the new one last. */
  lemma ReplacementLeavesOneMdat(boxes: seq<Box>, m: Box)
    requires m.MdatBox?
    ensures CountMdat(NonMdat(boxes) + [m]) == 1
    ensures NonMdat(NonMdat(boxes) + [m]) == NonMdat(boxes)
  {
    NonMdatHasNone(boxes);
    CountMdatAppend(NonMdat(boxes), [m]);
    NonMdatAppend(NonMdat(boxes), [m]);
  }

  /** What the loop guarantees about the box list of a result, given the list it started from. */
  predicate KeepsBoxes(boxes: seq<Box>, alreadyHasMdat: bool, r: ParseResult) {
    && NonMdat(boxes) <= NonMdat(r.boxes)
    && (!alreadyHasMdat ==> boxes <= r.boxes)
    && (alreadyHasMdat ==> CountMdat(r.boxes) == CountMdat(boxes) || CountMdat(r.boxes) == 1)
    && (r.Suspended? ==> r.resume.boxes == r.boxes)
  }

  /** A result over the entry list itself keeps it. */
  lemma SameBoxesKeep(boxes: seq<Box>, alreadyHasMdat: bool, r: ParseResult)
    requires r.boxes == boxes && (r.Suspended? ==> r.resume.boxes == r.boxes)
    ensures KeepsBoxes(boxes, alreadyHasMdat, r)
  {
  }

  /** A result over the entry list plus one box (not an `mdat` when one existed at entry) keeps it. */
  lemma AppendedKeeps(boxes: seq<Box>, box: Box, alreadyHasMdat: bool, r: ParseResult)
    requires alreadyHasMdat ==> !box.MdatBox?
    requires r.boxes == boxes + [box] && (r.Suspended? ==> r.resume.boxes == r.boxes)
    ensures KeepsBoxes(boxes, alreadyHasMdat, r)
  {
    NonMdatAppend(boxes, [box]);
    CountMdatAppend(boxes, [box]);
    assert (boxes + [box])[..|boxes|] == boxes;
  }

  /** A result over the entry list with its `mdat` boxes replaced by a new one keeps it. */
  lemma ReplacedKeeps(boxes: seq<Box>, box: Box, r: ParseResult)
    requires box.MdatBox? && r.boxes == NonMdat(boxes) + [box] && (r.Suspended? ==> r.resume.boxes == r.boxes)
    ensures KeepsBoxes(boxes, true, r)
  {
    ReplacementLeavesOneMdat(boxes, box);
  }

  /**
   * One iteration either appends exactly the box the decoder completed, and
   * moves to the cursor the decoder left, or ends the pass with a result
   * that keeps the boxes.
   */
  lemma IterateKeepsBoxes(ctx: Context, c: Cursor, maxBytes: Option<int>, allowIncompleteBoxes: bool,
                          boxes: seq<Box>, alreadyHasMdat: bool, continueMdat: Option<PartialMdatBox>)
    ensures var n := Iterate(ctx, c, maxBytes, allowIncompleteBoxes, boxes, alreadyHasMdat, continueMdat);
            && (n.Stop? && n.outcome.Ok? ==> KeepsBoxes(boxes, alreadyHasMdat, n.outcome.value.0))
            && (n.Again? ==> |n.boxes| == |boxes| + 1 && n.boxes[..|boxes|] == boxes &&
                             (alreadyHasMdat ==> !n.boxes[|boxes|].MdatBox?))
    ensures var n := Iterate(ctx, c, maxBytes, allowIncompleteBoxes, boxes, alreadyHasMdat, continueMdat);
            var step := Step(ctx, c, allowIncompleteBoxes, boxes, continueMdat);
            n.Again? ==> step.Ok? && step.value.0.Complete? &&
                         n.boxes == boxes + [step.value.0.box] && n.cursor == step.value.1
  {
    var n := Iterate(ctx, c, maxBytes, allowIncompleteBoxes, boxes, alreadyHasMdat, continueMdat);
    var step := Step(ctx, c, allowIncompleteBoxes, boxes, continueMdat);
    if step.Ok? {
      var c2 := step.value.1;
      match step.value.0
      case Incomplete =>
        if n.Stop? && n.outcome.Ok? { SameBoxesKeep(boxes, alreadyHasMdat, n.outcome.value.0); }
      case PartialMdat(_) =>
        SameBoxesKeep(boxes, alreadyHasMdat, n.outcome.value.0);
      case Complete(box, _, _) =>
        if box.MdatBox? && alreadyHasMdat {
          if n.outcome.Ok? {
            ReplacedKeeps(boxes, box, n.outcome.value.0);
          }
        } else if n.Again? {
          assert (boxes + [box])[..|boxes|] == boxes;
        } else if n.outcome.Ok? {
          AppendedKeeps(boxes, box, alreadyHasMdat, n.outcome.value.0);
        }
    }
  }

  /** Appending one box that is not an `mdat` (when one existed at entry) keeps what `KeepsBoxes` promises. */
  lemma KeepsBoxesTrans(boxes: seq<Box>, box: Box, alreadyHasMdat: bool, r: ParseResult)
    requires alreadyHasMdat ==> !box.MdatBox?
    requires KeepsBoxes(boxes + [box], alreadyHasMdat, r)
    ensures KeepsBoxes(boxes, alreadyHasMdat, r)
  {
    NonMdatAppend(boxes, [box]);
    CountMdatAppend(boxes, [box]);
    assert NonMdat(boxes) <= NonMdat(boxes + [box]);
    assert boxes <= boxes + [box];
  }

  /**
   * Whatever the loop returns, the non-`mdat` boxes it started with are a
   * prefix of the ones it ends with; without an `mdat` at entry every
   * earlier box is kept in place; with one, the number of `mdat` boxes stays
   * as it was or becomes exactly one; and a suspension's resume state holds
   * exactly the boxes it reports.
   */
  lemma {:induction false} LoopKeepsBoxes(ctx: Context, c: Cursor, initialOffset: nat, maxBytes: Option<int>,
                                          allowIncompleteBoxes: bool, boxes: seq<Box>, alreadyHasMdat: bool,
                                          continueMdat: Option<PartialMdatBox>)
    ensures var r := Loop(ctx, c, initialOffset, maxBytes, allowIncompleteBoxes, boxes, alreadyHasMdat, continueMdat);
            r.Ok? ==> KeepsBoxes(boxes, alreadyHasMdat, r.value.0)
    decreases c.Remaining()
  {
    if KeepParsing(c, initialOffset, maxBytes) {
      IterateKeepsBoxes(ctx, c, maxBytes, allowIncompleteBoxes, boxes, alreadyHasMdat, continueMdat);
      var n := Iterate(ctx, c, maxBytes, allowIncompleteBoxes, boxes, alreadyHasMdat, continueMdat);
      if n.Again? {
        LoopKeepsBoxes(ctx, n.cursor, initialOffset, maxBytes, allowIncompleteBoxes, n.boxes, alreadyHasMdat, continueMdat);
        var r := Loop(ctx, n.cursor, initialOffset, maxBytes, allowIncompleteBoxes, n.boxes, alreadyHasMdat, continueMdat);
        assert Loop(ctx, c, initialOffset, maxBytes, allowIncompleteBoxes, boxes, alreadyHasMdat, continueMdat) == r;
        if r.Ok? {
          assert n.boxes == boxes + [n.boxes[|boxes|]];
          KeepsBoxesTrans(boxes, n.boxes[|boxes|], alreadyHasMdat, r.value.0);
        }
      }
    } else {
      SameBoxesKeep(boxes, alreadyHasMdat, FinalStatus(ctx, c, maxBytes, boxes));
    }
  }

  /* ---------- Protocol errors ---------- */

  /** The errors that signal misuse of the driver rather than a malformed file. */
  predicate ProtocolError(e: ParseError) {
    e == SeekWithoutContentRange || e == MaxBytesMustBeInfinity || e == NoProgress
  }

  /**
   * When the loop may raise each protocol error: a seek without range
   * support never happens (the decoder only skips when the source can
   * seek); a finite ceiling meets an incomplete box only when incomplete
   * boxes are allowed; and the loop can stall only while continuing a
   * partial `mdat`.
   */
  predicate ErrorAllowed(e: ParseError, maxBytes: Option<int>, allowIncompleteBoxes: bool,
                         continueMdat: Option<PartialMdatBox>) {
    && e != SeekWithoutContentRange
    && (e == MaxBytesMustBeInfinity ==> maxBytes.Some? && allowIncompleteBoxes)
    && (e == NoProgress ==> continueMdat.Some?)
  }

  lemma {:induction false} ProcessBoxErrors(ctx: Context, c: Cursor, allowIncompleteBoxes: bool, parsedBoxes: seq<Box>)
    ensures var r := ProcessBox(ctx, c, allowIncompleteBoxes, parsedBoxes);
            r.Err? ==> !ProtocolError(r.error)
    decreases c.Remaining(), 1
  {
    var (header, c1) := ReadHeader(c);
    if header.BoxHeader? && c.BytesRemaining() >= header.boxSize {
      DecodeBoxErrors(ctx, c1, header.boxType, header.boxSize, c.Offset(), parsedBoxes);
    }
  }

  lemma {:induction false} DecodeBoxErrors(ctx: Context, c: Cursor, boxType: string, boxSize: nat, fileOffset: nat,
                                           parsedBoxes: seq<Box>)
    requires fileOffset <= c.Offset()
    ensures var r := DecodeBox(ctx, c, boxType, boxSize, fileOffset, parsedBoxes);
            r.Err? ==> !ProtocolError(r.error)
    decreases c.Remaining(), 7
  {
    if boxType !in LeafTypes {
      if boxType == "mebx" {
        ParseMebxErrors(ctx, c, fileOffset, boxSize);
      } else if boxType != "mdat" {
        GetChildrenErrors(ctx, boxType, c, boxSize - (c.Offset() - fileOffset));
      }
    }
  }

  lemma {:induction false} GetChildrenErrors(ctx: Context, boxType: string, c: Cursor, bytesRemainingInBox: int)
    ensures var r := GetChildren(ctx, boxType, c, bytesRemainingInBox);
            r.Err? ==> !ProtocolError(r.error)
    decreases c.Remaining(), 6
  {
    if boxType in CompositeTypes {
      ParseErrors(ctx, c, Some(bytesRemainingInBox), false, [], None);
    }
  }

  lemma {:induction false} ParseMebxErrors(ctx: Context, c: Cursor, offset: nat, size: nat)
    requires offset <= c.Offset()
    ensures var r := ParseMebx(ctx, c, offset, size);
            r.Err? ==> !ProtocolError(r.error)
    decreases c.Remaining(), 6
  {
    var c1 := c.Discard(6);
    var (_, c2) := c1.ReadUint(2);
    ParseErrors(ctx, c2, Some(c2.Offset() - offset), false, [], None);
  }

  lemma {:induction false} ParseErrors(ctx: Context, c: Cursor, maxBytes: Option<int>, allowIncompleteBoxes: bool,
                                       initialBoxes: seq<Box>, continueMdat: Option<PartialMdatBox>)
    ensures var r := ParseIsoBaseMediaBoxes(ctx, c, maxBytes, allowIncompleteBoxes, initialBoxes, continueMdat);
            r.Err? ==> ErrorAllowed(r.error, maxBytes, allowIncompleteBoxes, continueMdat)
    decreases c.Remaining(), 5
  {
    LoopErrors(ctx, c, c.Offset(), maxBytes, allowIncompleteBoxes, initialBoxes, GetMdatBox(initialBoxes).Some?, continueMdat);
  }

  lemma {:induction false} LoopErrors(ctx: Context, c: Cursor, initialOffset: nat, maxBytes: Option<int>,
                                      allowIncompleteBoxes: bool, boxes: seq<Box>, alreadyHasMdat: bool,
                                      continueMdat: Option<PartialMdatBox>)
    ensures var r := Loop(ctx, c, initialOffset, maxBytes, allowIncompleteBoxes, boxes, alreadyHasMdat, continueMdat);
            r.Err? ==> ErrorAllowed(r.error, maxBytes, allowIncompleteBoxes, continueMdat)
    decreases c.Remaining(), 4
  {
    if KeepParsing(c, initialOffset, maxBytes) {
      IterateErrors(ctx, c, maxBytes, allowIncompleteBoxes, boxes, alreadyHasMdat, continueMdat);
      var n := Iterate(ctx, c, maxBytes, allowIncompleteBoxes, boxes, alreadyHasMdat, continueMdat);
      if n.Again? {
        LoopErrors(ctx, n.cursor, initialOffset, maxBytes, allowIncompleteBoxes, n.boxes, alreadyHasMdat, continueMdat);
      }
    }
  }

  lemma {:induction false} IterateErrors(ctx: Context, c: Cursor, maxBytes: Option<int>, allowIncompleteBoxes: bool,
                                         boxes: seq<Box>, alreadyHasMdat: bool, continueMdat: Option<PartialMdatBox>)
    ensures var n := Iterate(ctx, c, maxBytes, allowIncompleteBoxes, boxes, alreadyHasMdat, continueMdat);
            n.Stop? && n.outcome.Err? ==> ErrorAllowed(n.outcome.error, maxBytes, allowIncompleteBoxes, continueMdat)
    decreases c.Remaining(), 3
  {
    StepErrors(ctx, c, allowIncompleteBoxes, boxes, continueMdat);
    if continueMdat.None? {
      HeaderProperties.SkipOnlyWithContentRange(ctx, c, allowIncompleteBoxes, boxes);
      if !allowIncompleteBoxes {
        HeaderProperties.NoIncompleteWhenDisallowed(ctx, c, boxes);
      }
    } else {
      assert Step(ctx, c, allowIncompleteBoxes, boxes, continueMdat)
          == ParseMdatPartially(ctx, c, continueMdat.value.boxSize, continueMdat.value.fileOffset, boxes);
    }
  }

  lemma {:induction false} StepErrors(ctx: Context, c: Cursor, allowIncompleteBoxes: bool, boxes: seq<Box>,
                                      continueMdat: Option<PartialMdatBox>)
    ensures var r := Step(ctx, c, allowIncompleteBoxes, boxes, continueMdat);
            r.Err? ==> !ProtocolError(r.error)
    decreases c.Remaining(), 2
  {
    if continueMdat.None? {
      ProcessBoxErrors(ctx, c, allowIncompleteBoxes, boxes);
    }
  }

  /**
   * When an `mdat` existed at entry, a newly completed `mdat` replaces all
   * earlier ones, so exactly one remains; it must be fully processed (else
   * an error) and the loop stops there, going straight to the final check.
   */
  lemma MdatReplacesEarlier(ctx: Context, c: Cursor, initialOffset: nat, maxBytes: Option<int>,
                            allowIncompleteBoxes: bool, boxes: seq<Box>, continueMdat: Option<PartialMdatBox>)
    requires KeepParsing(c, initialOffset, maxBytes)
    requires var step := Step(ctx, c, allowIncompleteBoxes, boxes, continueMdat);
             step.Ok? && step.value.0.Complete? && step.value.0.box.MdatBox?
    ensures var step := Step(ctx, c, allowIncompleteBoxes, boxes, continueMdat);
            var m := step.value.0.box;
            var r := Loop(ctx, c, initialOffset, maxBytes, allowIncompleteBoxes, boxes, true, continueMdat);
            && (m.status != SamplesProcessed ==> r == Err(UnexpectedMdatStatus))
            && (m.status == SamplesProcessed ==>
                  r.Ok? && r.value.1 == step.value.1 &&
                  r.value.0.boxes == NonMdat(boxes) + [m] && CountMdat(r.value.0.boxes) == 1)
  {
    ReplacementLeavesOneMdat(boxes, Step(ctx, c, allowIncompleteBoxes, boxes, continueMdat).value.0.box);
  }

  /**
   * The entry point: the boxes given at entry are kept (in place when none
   * is an `mdat`), and exactly one `mdat` remains when exactly one was given.
   */
  lemma ParseKeepsInitialBoxes(ctx: Context, c: Cursor, maxBytes: Option<int>, allowIncompleteBoxes: bool,
                               initialBoxes: seq<Box>, continueMdat: Option<PartialMdatBox>)
    ensures var r := ParseIsoBaseMediaBoxes(ctx, c, maxBytes, allowIncompleteBoxes, initialBoxes, continueMdat);
            && (r.Ok? ==> NonMdat(initialBoxes) <= NonMdat(r.value.0.boxes))
            && (r.Ok? && CountMdat(initialBoxes) == 0 ==> initialBoxes <= r.value.0.boxes)
            && (r.Ok? && CountMdat(initialBoxes) == 1 ==> CountMdat(r.value.0.boxes) == 1)
  {
    var has := GetMdatBox(initialBoxes).Some?;
    LoopKeepsBoxes(ctx, c, c.Offset(), maxBytes, allowIncompleteBoxes, initialBoxes, has, continueMdat);
    CountMatchesFind(initialBoxes);
  }

  lemma {:induction false} CountMatchesFind(bs: seq<Box>)
    ensures CountMdat(bs) == 0 <==> GetMdatBox(bs).None?
    decreases |bs|
  {
    if |bs| > 0 {
      CountMatchesFind(bs[1..]);
      if !bs[0].MdatBox? {
        assert GetMdatBox(bs).None? <==> GetMdatBox(bs[1..]).None?;
      }
    }
  }

  /** Resuming is additive: the boxes of the suspended result are kept by the resumed pass. */
  lemma ResumeIsAdditive(ctx: Context, resume: Resume, c: Cursor)
    requires CountMdat(resume.boxes) == 0
    ensures var r := Continue(ctx, resume, c);
            r.Ok? ==> resume.boxes <= r.value.0.boxes
  {
    var c' := if resume.seekBeforeResume.Some? then Seek(c, resume.seekBeforeResume.value) else c;
    ParseKeepsInitialBoxes(ctx, c', resume.maxBytes, resume.allowIncompleteBoxes, resume.boxes, resume.continueMdat);
  }
}

=== FILE: get_tracks.dfy ===
/**
 * Track derivation (`get-tracks.ts`): whether all tracks of a file are
 * known yet, and the split of derived tracks into video, audio and other
 * lists. Turning one `trak` box (or Matroska track entry, or AVI stream)
 * into a track is done by collaborators that are parameters here.
 */
module Tracks {
  import opened Wrappers
  import opened IsoBox
  import opened Containers

  /** `MediaParserVideoCodec`. */
  datatype VideoCodec = Vp8 | Vp9 | H264 | Av1 | H265 | ProRes

  datatype Track =
    | VideoTrack(trackId: int, timescale: nat, codec: string, codecWithoutConfig: VideoCodec)
    | AudioTrack(trackId: int, timescale: nat, codec: string)
    | OtherTrack(trackId: int, timescale: nat)

  datatype AllTracks = AllTracks(videoTracks: seq<Track>, audioTracks: seq<Track>, otherTracks: seq<Track>)

  datatype TrackError = NoMainSegment

  /**
   * The collaborators that build single tracks: `makeBaseMediaTrack` for a
   * `trak` box, `getTracksFromMatroska` for the main segment, and
   * `getTracksFromAvi` / `hasAllTracksFromAvi` for a RIFF structure.
   */
  datatype TrackSources = TrackSources(
    makeTrack: Box -> Option<Track>,
    fromMatroska: MkvElement -> seq<Track>,
    fromAvi: seq<RiffBox> -> AllTracks,
    hasAllTracksFromAvi: seq<RiffBox> -> bool)

  /** `getNumberOfTracks`: the track count the movie header announces. */
  function GetNumberOfTracks(moov: Box): (n: int)
    ensures GetMvhdBox(moov).None? ==> n == 0
    ensures GetMvhdBox(moov).Some? ==> n + 1 == GetMvhdBox(moov).value.nextTrackId
  {
    match GetMvhdBox(moov)
    case None => 0
    case Some(mvhd) => mvhd.nextTrackId - 1
  }

  /** `hasTracks` for ISO media: a `moov` exists and it holds as many `trak` boxes as announced. */
  predicate HasIsoTracks(boxes: seq<Box>) {
    match GetMoovBox(boxes)
    case None => false
    case Some(moov) => |GetTraks(moov)| == GetNumberOfTracks(moov)
  }

  /** `hasTracks`: dispatch on the container. */
  function HasTracks(src: TrackSources, s: Structure): (r: Result<bool, TrackError>)
    ensures s.IsoStructure? ==> r == Ok(HasIsoTracks(s.boxes))
    ensures s.MatroskaStructure? ==>
              (r.Err? <==> GetMainSegment(s.segments).None?) &&
              (r.Ok? ==> (r.value <==> exists e :: e in GetMainSegment(s.segments).value.elements && e.MkvTracks?))
    ensures s.RiffStructure? ==> r == Ok(src.hasAllTracksFromAvi(s.riffBoxes))
  {
    match s
    case MatroskaStructure(segments) =>
      (match GetMainSegment(segments)
       case None => Err(NoMainSegment)
       case Some(main) => Ok(GetTracksSegment(main).Some?))
    case IsoStructure(boxes) => Ok(HasIsoTracks(boxes))
    case RiffStructure(riffBoxes) => Ok(src.hasAllTracksFromAvi(riffBoxes))
  }

  /** The ISO answer depends only on the first `moov`: later boxes never change it. */
  lemma HasIsoTracksStable(boxes: seq<Box>, later: seq<Box>)
    requires GetMoovBox(boxes).Some?
    ensures HasIsoTracks(boxes + later) == HasIsoTracks(boxes)
  {
    FindPrefix(boxes, later, (b: Box) => b.MoovBox?);
  }

  lemma {:induction false} FindPrefix(bs: seq<Box>, later: seq<Box>, p: Box -> bool)
    requires Find(bs, p).Some?
    ensures Find(bs + later, p) == Find(bs, p)
    decreases |bs|
  {
    if !p(bs[0]) {
      assert (bs + later)[1..] == bs[1..] + later;
      FindPrefix(bs[1..], later, p);
    }
  }

  /* ---------- Partition into video / audio / other ---------- */

  datatype Kind = Video | Audio | Other

  function KindOf(t: Track): Kind {
    match t
    case VideoTrack(_, _, _, _) => Video
    case AudioTrack(_, _, _) => Audio
    case OtherTrack(_, _) => Other
  }

  /** Reference definition: the tracks of one kind, in input order. */
  function OfKind(ts: seq<Track>, k: Kind): seq<Track> {
    if |ts| == 0 then [] else (if KindOf(ts[0]) == k then [ts[0]] else []) + OfKind(ts[1..], k)
  }

  function Videos(ts: seq<Track>): seq<Track> { OfKind(ts, Video) }
  function Audios(ts: seq<Track>): seq<Track> { OfKind(ts, Audio) }
  function Others(ts: seq<Track>): seq<Track> { OfKind(ts, Other) }

  lemma {:induction false} OfKindSnoc(ts: seq<Track>, t: Track, k: Kind)
    ensures OfKind(ts + [t], k) == OfKind(ts, k) + (if KindOf(t) == k then [t] else [])
    decreases |ts|
  {
    if |ts| > 0 {
      assert (ts + [t])[1..] == ts[1..] + [t];
      OfKindSnoc(ts[1..], t, k);
      var h := if KindOf(ts[0]) == k then [ts[0]] else [];
      var l := if KindOf(t) == k then [t] else [];
      calc {
        OfKind(ts + [t], k);
        h + OfKind(ts[1..] + [t], k);
        h + (OfKind(ts[1..], k) + l);
        (h + OfKind(ts[1..], k)) + l;
      }
    } else {
      assert ts + [t] == [t];
    }
  }

  lemma KindsSnoc(ts: seq<Track>, t: Track)
    ensures Videos(ts + [t]) == Videos(ts) + (if t.VideoTrack? then [t] else [])
    ensures Audios(ts + [t]) == Audios(ts) + (if t.AudioTrack? then [t] else [])
    ensures Others(ts + [t]) == Others(ts) + (if t.OtherTrack? then [t] else [])
  {
    OfKindSnoc(ts, t, Video);
    OfKindSnoc(ts, t, Audio);
    OfKindSnoc(ts, t, Other);
  }

  /** One step of the derivation loop: push a track onto the list of its kind. */
  function Push(acc: AllTracks, t: Track): AllTracks {
    match t
    case VideoTrack(_, _, _, _) => acc.(videoTracks := acc.videoTracks + [t])
    case AudioTrack(_, _, _) => acc.(audioTracks := acc.audioTracks + [t])
    case OtherTrack(_, _) => acc.(otherTracks := acc.otherTracks + [t])
  }

  /** The loops of `getTracksFromIsoBaseMedia` and `getTracksFromMa`: every track pushed in order. */
  function Partition(ts: seq<Track>): AllTracks
    decreases |ts|
  {
    if |ts| == 0 then AllTracks([], [], [])
    else Push(Partition(ts[..|ts| - 1]), ts[|ts| - 1])
  }

  /** Each list is exactly the input's tracks of that kind, in input order. */
  lemma {:induction false} PartitionKeepsOrder(ts: seq<Track>)
    ensures Partition(ts).videoTracks == Videos(ts)
    ensures Partition(ts).audioTracks == Audios(ts)
    ensures Partition(ts).otherTracks == Others(ts)
    decreases |ts|
  {
    if |ts| > 0 {
      var init := ts[..|ts| - 1];
      var last := ts[|ts| - 1];
      assert ts == init + [last];
      PartitionKeepsOrder(init);
      KindsSnoc(init, last);
    }
  }

  /** All tracks of an `AllTracks` value, as a multiset. */
  function AllOf(r: AllTracks): multiset<Track> {
    multiset(r.videoTracks) + multiset(r.audioTracks) + multiset(r.otherTracks)
  }

  /** Pushing a track adds exactly that track to the lists. */
  lemma AllOfPush(acc: AllTracks, t: Track)
    ensures AllOf(Push(acc, t)) == AllOf(acc) + multiset{t}
  {
    match t
    case VideoTrack(_, _, _, _) => assert multiset(acc.videoTracks + [t]) == multiset(acc.videoTracks) + multiset{t};
    case AudioTrack(_, _, _) => assert multiset(acc.audioTracks + [t]) == multiset(acc.audioTracks) + multiset{t};
    case OtherTrack(_, _) => assert multiset(acc.otherTracks + [t]) == multiset(acc.otherTracks) + multiset{t};
  }

  /** Every track lands in exactly one of the three lists: together they are a permutation of the input. */
  lemma {:induction false} PartitionIsPermutation(ts: seq<Track>)
    ensures AllOf(Partition(ts)) == multiset(ts)
    decreases |ts|
  {
    if |ts| > 0 {
      var init := ts[..|ts| - 1];
      var last := ts[|ts| - 1];
      assert ts == init + [last];
      PartitionIsPermutation(init);
      var p := Partition(init);
      assert Partition(ts) == Push(p, last);
      AllOfPush(p, last);
      assert multiset(init + [last]) == multiset(init) + multiset{last};
    }
  }

  /** Each list holds tracks of its own kind only. */
  lemma {:induction false} PartitionKinds(ts: seq<Track>)
    ensures forall t :: t in Partition(ts).videoTracks ==> t.VideoTrack?
    ensures forall t :: t in Partition(ts).audioTracks ==> t.AudioTrack?
    ensures forall t :: t in Partition(ts).otherTracks ==> t.OtherTrack?
    decreases |ts|
  {
    if |ts| > 0 {
      var init := ts[..|ts| - 1];
      PartitionKinds(init);
      assert Partition(ts) == Push(Partition(init), ts[|ts| - 1]);
    }
  }

  /** The tracks `makeTrack` derives from the given `trak` boxes, skipping underivable ones. */
  function Derivable(makeTrack: Box -> Option<Track>, traks: seq<Box>): (r: seq<Track>)
    ensures |r| <= |traks|
    ensures forall t :: t in r ==> exists k :: k in traks && makeTrack(k) == Some(t)
    ensures forall k :: k in traks && makeTrack(k).Some? ==> makeTrack(k).value in r
  {
    if |traks| == 0 then []
    else
      var rest := Derivable(makeTrack, traks[1..]);
      assert forall t :: t in rest ==> exists k :: k in traks && makeTrack(k) == Some(t) by {
        forall t | t in rest ensures exists k :: k in traks && makeTrack(k) == Some(t) {
          var k :| k in traks[1..] && makeTrack(k) == Some(t);
          assert k in traks;
        }
      }
      assert forall k :: k in traks ==> k == traks[0] || k in traks[1..];
      match makeTrack(traks[0])
      case Some(t) => [t] + rest
      case None => rest
  }

  /** A single `trak` yields its track when it has one and nothing otherwise. */
  lemma DerivableOne(makeTrack: Box -> Option<Track>, k: Box)
    ensures Derivable(makeTrack, [k]) == if makeTrack(k).Some? then [makeTrack(k).value] else []
  {
    assert [k][1..] == [];
  }

  /**
   * The tracks of consecutive runs of `trak` boxes are the runs' tracks
   * concatenated: with `DerivableOne` this fixes the result as one track
   * per derivable `trak`, in `trak` order.
   */
  lemma {:induction false} DerivableAppend(makeTrack: Box -> Option<Track>, a: seq<Box>, b: seq<Box>)
    ensures Derivable(makeTrack, a + b) == Derivable(makeTrack, a) + Derivable(makeTrack, b)
    decreases |a|
  {
    if |a| > 0 {
      assert (a + b)[0] == a[0];
      assert (a + b)[1..] == a[1..] + b;
      DerivableAppend(makeTrack, a[1..], b);
    } else {
      assert a + b == b;
    }
  }

  /** `getTracksFromIsoBaseMedia`. */
  function GetTracksFromIsoBaseMedia(makeTrack: Box -> Option<Track>, boxes: seq<Box>): (r: AllTracks)
    ensures GetMoovBox(boxes).None? ==> r == AllTracks([], [], [])
    ensures GetMoovBox(boxes).Some? ==>
              var ts := Derivable(makeTrack, GetTraks(GetMoovBox(boxes).value));
              r.videoTracks == Videos(ts) && r.audioTracks == Audios(ts) && r.otherTracks == Others(ts)
  {
    match GetMoovBox(boxes)
    case None => AllTracks([], [], [])
    case Some(moov) =>
      var ts := Derivable(makeTrack, GetTraks(moov));
      PartitionKeepsOrder(ts);
      Partition(ts)
  }

  /** `getTracksFromMa`. */
  function GetTracksFromMatroska(src: TrackSources, segments: seq<MkvElement>): (r: Result<AllTracks, TrackError>)
    ensures r.Err? <==> GetMainSegment(segments).None?
    ensures r.Ok? ==> var ts := src.fromMatroska(GetMainSegment(segments).value);
              r.value.videoTracks == Videos(ts) && r.value.audioTracks == Audios(ts) && r.value.otherTracks == Others(ts)
  {
    match GetMainSegment(segments)
    case None => Err(NoMainSegment)
    case Some(main) =>
      PartitionKeepsOrder(src.fromMatroska(main));
      Ok(Partition(src.fromMatroska(main)))
  }

  /** `getTracks`: dispatch on the container discriminant. */
  function GetTracks(src: TrackSources, s: Structure): (r: Result<AllTracks, TrackError>)
    ensures s.IsoStructure? ==> r == Ok(GetTracksFromIsoBaseMedia(src.makeTrack, s.boxes))
    ensures s.MatroskaStructure? ==> r == GetTracksFromMatroska(src, s.segments)
    ensures s.RiffStructure? ==> r == Ok(src.fromAvi(s.riffBoxes))
    ensures r.Err? ==> s.MatroskaStructure?
  {
    match s
    case MatroskaStructure(segments) => GetTracksFromMatroska(src, segments)
    case IsoStructure(boxes) => Ok(GetTracksFromIsoBaseMedia(src.makeTrack, boxes))
    case RiffStructure(riffBoxes) => Ok(src.fromAvi(riffBoxes))
  }

  /**
   * Every derivable `trak` of the `moov` yields exactly one track in the
   * result, in `trak` order within its kind, and no track comes from
   * anywhere else.
   */
  lemma IsoTracksAccountForDerivableTraks(makeTrack: Box -> Option<Track>, boxes: seq<Box>)
    requires GetMoovBox(boxes).Some?
    ensures var ts := Derivable(makeTrack, GetTraks(GetMoovBox(boxes).value));
            var r := GetTracksFromIsoBaseMedia(makeTrack, boxes);
            AllOf(r) == multiset(ts)
  {
    PartitionIsPermutation(Derivable(makeTrack, GetTraks(GetMoovBox(boxes).value)));
  }
}

=== FILE: get_video_codec.dfy ===
/**
 * Video codec derivation (`get-video-codec.ts`): the codec of the first
 * video track of each container family, the codec configuration record of
 * an ISO track (private data and codec string, with `avcC` taking
 * precedence over `hvcC` over `av1C`), and its colour parameters.
 */
module VideoCodecs {
  import opened Wrappers
  import opened Cursor
  import opened IsoBox
  import opened Containers
  import opened Tracks

  /** The errors the lookups throw. */
  datatype CodecError = CouldNotFindVideoCodec | NoStrhBox | UnsupportedCodec

  /* ---------- ISO sample-entry formats ---------- */

  /** The ProRes sample-entry formats (4444, 4444 XQ, 422 HQ, 422, 422 LT, 422 Proxy, RAW HQ, RAW). */
  const ProResFormats: set<string> := {"ap4h", "ap4x", "apch", "apcn", "apcs", "apco", "aprh", "aprn"}

  /** The codec a sample-entry format names, checked in the order of the source's `if` chain. */
  function IsoFormatCodec(format: string): Option<VideoCodec> {
    if format == "hvc1" then Some(H265)
    else if format == "avc1" then Some(H264)
    else if format == "av01" then Some(Av1)
    else if format == "ap4h" then Some(ProRes)
    else if format == "ap4x" then Some(ProRes)
    else if format == "apch" then Some(ProRes)
    else if format == "apcn" then Some(ProRes)
    else if format == "apcs" then Some(ProRes)
    else if format == "apco" then Some(ProRes)
    else if format == "aprh" then Some(ProRes)
    else if format == "aprn" then Some(ProRes)
    else None
  }

  /** Reference table, per codec: the sample-entry formats that denote it. */
  function IsoFormats(k: VideoCodec): set<string> {
    match k
    case H265 => {"hvc1"}
    case H264 => {"avc1"}
    case Av1 => {"av01"}
    case ProRes => ProResFormats
    case Vp8 => {}
    case Vp9 => {}
  }

  /** The `if` chain and the per-codec table agree in both directions. */
  lemma IsoFormatTable(format: string, k: VideoCodec)
    ensures IsoFormatCodec(format) == Some(k) <==> format in IsoFormats(k)
  {
  }

  /** `getVideoCodecFromIsoTrak`: the codec of the track's first video sample entry. */
  function GetVideoCodecFromIsoTrak(trak: Box): (r: Result<VideoCodec, CodecError>)
    ensures r.Ok? <==> GetStsdVideoConfig(trak).Some? && IsoFormatCodec(GetStsdVideoConfig(trak).value.format).Some?
    ensures r.Ok? ==> GetStsdVideoConfig(trak).value.format in IsoFormats(r.value)
    ensures r.Err? ==> r.error == CouldNotFindVideoCodec
  {
    match GetStsdVideoConfig(trak)
    case None => Err(CouldNotFindVideoCodec)
    case Some(sample) =>
      match IsoFormatCodec(sample.format)
      case None => Err(CouldNotFindVideoCodec)
      case Some(k) =>
        IsoFormatTable(sample.format, k);
        Ok(k)
  }

  /* ---------- Matroska CodecID ---------- */

  /** The video codec a Matroska CodecID names. */
  function MatroskaCodec(codecId: string): Option<VideoCodec> {
    if codecId == "V_VP8" then Some(Vp8)
    else if codecId == "V_VP9" then Some(Vp9)
    else if codecId == "V_AV1" then Some(Av1)
    else if codecId == "V_MPEG4/ISO/AVC" then Some(H264)
    else if codecId == "V_MPEGH/ISO/HEVC" then Some(H265)
    else None
  }

  /** Reference table, per codec: its Matroska CodecID, if it has one. */
  function MatroskaCodecId(k: VideoCodec): Option<string> {
    match k
    case Vp8 => Some("V_VP8")
    case Vp9 => Some("V_VP9")
    case Av1 => Some("V_AV1")
    case H264 => Some("V_MPEG4/ISO/AVC")
    case H265 => Some("V_MPEGH/ISO/HEVC")
    case ProRes => None
  }

  lemma MatroskaCodecTable(codecId: string, k: VideoCodec)
    ensures MatroskaCodec(codecId) == Some(k) <==> MatroskaCodecId(k) == Some(codecId)
  {
  }

  /** The codec a track entry announces: its first CodecID, when that is a recognised video codec. */
  function EntryCodec(e: MkvElement): Option<VideoCodec> {
    if !e.MkvTrackEntry? then None
    else
      match FirstCodecId(e.elements)
      case None => None
      case Some(id) => MatroskaCodec(id)
  }

  /** The codec of the first track entry that announces one, in element order. */
  function FirstEntryCodec(es: seq<MkvElement>): (r: Option<VideoCodec>)
    ensures r.None? <==> forall i :: 0 <= i < |es| ==> EntryCodec(es[i]).None?
    ensures r.Some? ==> exists i :: 0 <= i < |es| && EntryCodec(es[i]) == r &&
                                    forall j :: 0 <= j < i ==> EntryCodec(es[j]).None?
  {
    if |es| == 0 then None
    else if EntryCodec(es[0]).Some? then EntryCodec(es[0])
    else
      var r := FirstEntryCodec(es[1..]);
      assert forall i :: 1 <= i < |es| ==> es[i] == es[1..][i - 1];
      if r.Some? then
        var i :| 0 <= i < |es[1..]| && EntryCodec(es[1..][i]) == r && forall j :: 0 <= j < i ==> EntryCodec(es[1..][j]).None?;
        assert EntryCodec(es[i + 1]) == r;
        assert forall j :: 0 <= j < i + 1 ==> EntryCodec(es[j]).None? by {
          forall j | 0 <= j < i + 1 ensures EntryCodec(es[j]).None? {
            if j > 0 { assert es[j] == es[1..][j - 1]; }
          }
        }
        r
      else r
  }

  /**
   * `getVideoCodecFromMatroska`: no codec (`Ok(None)`) without a Segment or
   * without a Tracks element in it; otherwise the first track entry with a
   * recognised video CodecID decides, and none is an error.
   */
  function GetVideoCodecFromMatroska(segments: seq<MkvElement>): (r: Result<Option<VideoCodec>, CodecError>)
    ensures r == Ok(None) <==>
              GetMainSegment(segments).None? || GetTracksSegment(GetMainSegment(segments).value).None?
    ensures r.Ok? && r.value.Some? ==>
              var tracks := GetTracksSegment(GetMainSegment(segments).value).value.elements;
              exists i :: 0 <= i < |tracks| && EntryCodec(tracks[i]) == r.value &&
                          forall j :: 0 <= j < i ==> EntryCodec(tracks[j]).None?
    ensures r.Err? ==>
              && r.error == CouldNotFindVideoCodec
              && forall e :: e in GetTracksSegment(GetMainSegment(segments).value).value.elements ==> EntryCodec(e).None?
  {
    match GetMainSegment(segments)
    case None => Ok(None)
    case Some(main) =>
      match GetTracksSegment(main)
      case None => Ok(None)
      case Some(tracks) =>
        match FirstEntryCodec(tracks.elements)
        case None => Err(CouldNotFindVideoCodec)
        case Some(k) => Ok(Some(k))
  }

  /* ---------- AVI stream headers ---------- */

  /** The stream header of a `strl` list. */
  function StreamHeader(strl: RiffBox): Option<RiffBox> {
    if strl.RiffList? then GetStrhBox(strl.riffChildren) else None
  }

  /** A stream the AVI lookup stops at: one without a header, or a non-audio H.264 stream. */
  predicate Decides(strl: RiffBox) {
    match StreamHeader(strl)
    case None => true
    case Some(strh) => strh.fccType != "auds" && strh.handler == "H264"
  }

  /** The scan over the stream lists: the first deciding stream answers, none is unsupported. */
  function ScanStreams(strls: seq<RiffBox>): (r: Result<VideoCodec, CodecError>)
    ensures r == Err(UnsupportedCodec) <==> forall i :: 0 <= i < |strls| ==> !Decides(strls[i])
    ensures r != Err(UnsupportedCodec) ==>
              exists i :: 0 <= i < |strls| && Decides(strls[i]) && (forall j :: 0 <= j < i ==> !Decides(strls[j])) &&
                          r == (if StreamHeader(strls[i]).None? then Err(NoStrhBox) else Ok(H264))
    decreases |strls|, 1
  {
    if |strls| == 0 then Err(UnsupportedCodec)
    else
      match StreamHeader(strls[0])
      case None => Err(NoStrhBox)
      case Some(strh) =>
        if strh.fccType == "auds" then ScanRest(strls)
        else if strh.handler == "H264" then Ok(H264)
        else ScanRest(strls)
  }

  /** The scan continued past a first stream that does not decide. */
  function ScanRest(strls: seq<RiffBox>): (r: Result<VideoCodec, CodecError>)
    requires |strls| > 0 && !Decides(strls[0])
    ensures r == Err(UnsupportedCodec) <==> forall i :: 0 <= i < |strls| ==> !Decides(strls[i])
    ensures r != Err(UnsupportedCodec) ==>
              exists i :: 0 <= i < |strls| && Decides(strls[i]) && (forall j :: 0 <= j < i ==> !Decides(strls[j])) &&
                          r == (if StreamHeader(strls[i]).None? then Err(NoStrhBox) else Ok(H264))
    decreases |strls|, 0
  {
    var r := ScanStreams(strls[1..]);
    assert forall i :: 1 <= i < |strls| ==> strls[i] == strls[1..][i - 1];
    if r != Err(UnsupportedCodec) then
      var i :| 0 <= i < |strls[1..]| && Decides(strls[1..][i]) && (forall j :: 0 <= j < i ==> !Decides(strls[1..][j])) &&
               r == (if StreamHeader(strls[1..][i]).None? then Err(NoStrhBox) else Ok(H264));
      assert strls[i + 1] == strls[1..][i];
      assert forall j :: 0 <= j < i + 1 ==> !Decides(strls[j]) by {
        forall j | 0 <= j < i + 1 ensures !Decides(strls[j]) {
          if j > 0 { assert strls[j] == strls[1..][j - 1]; }
        }
      }
      r
    else r
  }

  /** `getVideoCodecFromAvi`: scan the `strl` lists of the header list. */
  function GetVideoCodecFromAvi(boxes: seq<RiffBox>): (r: Result<VideoCodec, CodecError>)
    ensures r.Ok? ==> r.value == H264
    ensures r.Ok? <==> exists i :: 0 <= i < |GetStrlBoxes(boxes)| && StreamHeader(GetStrlBoxes(boxes)[i]).Some? &&
                                   Decides(GetStrlBoxes(boxes)[i]) &&
                                   forall j :: 0 <= j < i ==> !Decides(GetStrlBoxes(boxes)[j])
    ensures r == Err(UnsupportedCodec) <==> forall s :: s in GetStrlBoxes(boxes) ==> !Decides(s)
  {
    var strls := GetStrlBoxes(boxes);
    var r := ScanStreams(strls);
    assert (forall s :: s in strls ==> !Decides(s)) <==> (forall i :: 0 <= i < |strls| ==> !Decides(strls[i]));
    r
  }

  /* ---------- Dispatch ---------- */

  /** The first track of `moov` whose sample description holds a video entry (`filter(...)[0]`). */
  function FirstVideoTrak(moov: Box): Option<Box> {
    Find(GetTraks(moov), (t: Box) => TrakBoxContainsVideo(t))
  }

  /**
   * `getVideoCodec`: for ISO media, no codec without a `moov` or without a
   * video track, else the codec of the first video track; RIFF and
   * Matroska go to their own lookups.
   */
  function GetVideoCodec(s: Structure): (r: Result<Option<VideoCodec>, CodecError>)
    ensures s.IsoStructure? ==>
              (r == Ok(None) <==> GetMoovBox(s.boxes).None? || FirstVideoTrak(GetMoovBox(s.boxes).value).None?)
    ensures s.IsoStructure? && r.Ok? && r.value.Some? ==>
              var trak := FirstVideoTrak(GetMoovBox(s.boxes).value).value;
              trak in GetTraks(GetMoovBox(s.boxes).value) && TrakBoxContainsVideo(trak) &&
              GetStsdVideoConfig(trak).value.format in IsoFormats(r.value.value)
    ensures s.IsoStructure? && r.Err? ==>
              && GetMoovBox(s.boxes).Some? && FirstVideoTrak(GetMoovBox(s.boxes).value).Some?
              && r.error == CouldNotFindVideoCodec
              && var trak := FirstVideoTrak(GetMoovBox(s.boxes).value).value;
                 IsoFormatCodec(GetStsdVideoConfig(trak).value.format).None?
    ensures s.RiffStructure? ==> r.Ok? ==> r.value == Some(H264)
    ensures s.RiffStructure? ==>
              && (r.Ok? <==> GetVideoCodecFromAvi(s.riffBoxes).Ok?)
              && (r.Err? ==> r.error == GetVideoCodecFromAvi(s.riffBoxes).error)
    ensures s.MatroskaStructure? ==> r == GetVideoCodecFromMatroska(s.segments)
  {
    match s
    case IsoStructure(boxes) =>
      (match GetMoovBox(boxes)
       case None => Ok(None)
       case Some(moov) =>
         match FirstVideoTrak(moov)
         case None => Ok(None)
         case Some(trak) =>
           var k :- GetVideoCodecFromIsoTrak(trak);
           Ok(Some(k)))
    case RiffStructure(riffBoxes) =>
      var k :- GetVideoCodecFromAvi(riffBoxes);
      Ok(Some(k))
    case MatroskaStructure(segments) => GetVideoCodecFromMatroska(segments)
  }

  /* ---------- Codec configuration record ---------- */

  /** `getVideoPrivateData`: the configuration record's bytes, `avcC` before `hvcC` before `av1C`. */
  function GetVideoPrivateData(trak: Box): (r: Option<seq<byte>>)
    ensures GetStsdVideoConfig(trak).None? ==> r.None?
    ensures r.None? <==>
              GetStsdVideoConfig(trak).None? ||
              (GetAvccBox(trak).None? && GetHvccBox(trak).None? && GetAv1CBox(trak).None?)
    ensures r.Some? ==> exists b :: b in VideoSampleChildren(trak) && ConfigurationRecord(b) && r.value == b.privateData
  {
    if GetStsdVideoConfig(trak).None? then None
    else if GetAvccBox(trak).Some? then Some(GetAvccBox(trak).value.privateData)
    else if GetHvccBox(trak).Some? then Some(GetHvccBox(trak).value.privateData)
    else if GetAv1CBox(trak).Some? then Some(GetAv1CBox(trak).value.privateData)
    else None
  }

  /** A codec configuration record box. */
  predicate ConfigurationRecord(b: Box) { b.AvccBox? || b.HvccBox? || b.Av1cBox? }

  /**
   * `getVideoCodecString`: `format.configurationString` from `avcC` or
   * `hvcC`, the AV1 string built from the `av1C` record and the colour box
   * (`parseAv1PrivateData`, a parameter here), else the bare format.
   */
  function GetVideoCodecString(trak: Box, parseAv1PrivateData: (seq<byte>, Option<Box>) -> string): (r: Option<string>)
    ensures r.Some? <==> TrakBoxContainsVideo(trak)
    ensures r.Some? && GetAvccBox(trak).None? && GetHvccBox(trak).None? && GetAv1CBox(trak).None? ==>
              r.value == GetStsdVideoConfig(trak).value.format
  {
    match GetStsdVideoConfig(trak)
    case None => None
    case Some(sample) =>
      if GetAvccBox(trak).Some? then Some(sample.format + "." + GetAvccBox(trak).value.configurationString)
      else if GetHvccBox(trak).Some? then Some(sample.format + "." + GetHvccBox(trak).value.configurationString)
      else if GetAv1CBox(trak).Some? then Some(parseAv1PrivateData(GetAv1CBox(trak).value.privateData, GetColrBox(sample)))
      else Some(sample.format)
  }

  /**
   * The private data and the codec string come from the same configuration
   * record: with an `avcC` or `hvcC` both are taken from that box (the
   * string being the sample format, a dot, and its configuration string),
   * with only `av1C` the string is derived from the very bytes returned as
   * private data, and with none there is no private data and the string is
   * the bare format.
   */
  lemma PrivateDataMatchesCodecString(trak: Box, parseAv1PrivateData: (seq<byte>, Option<Box>) -> string)
    ensures TrakBoxContainsVideo(trak) ==>
            var data := GetVideoPrivateData(trak);
            var str := GetVideoCodecString(trak, parseAv1PrivateData).value;
            var format := GetStsdVideoConfig(trak).value.format;
            && (GetAvccBox(trak).Some? ==>
                  data == Some(GetAvccBox(trak).value.privateData) &&
                  str == format + "." + GetAvccBox(trak).value.configurationString)
            && (GetAvccBox(trak).None? && GetHvccBox(trak).Some? ==>
                  data == Some(GetHvccBox(trak).value.privateData) &&
                  str == format + "." + GetHvccBox(trak).value.configurationString)
            && (GetAvccBox(trak).None? && GetHvccBox(trak).None? && data.Some? ==>
                  str == parseAv1PrivateData(data.value, GetColrBox(GetStsdVideoConfig(trak).value)))
            && (data.None? ==> str == format)
  {
  }

  /* ---------- Colour parameters ---------- */

  /** The colour standards the parameters are named by. */
  datatype ColorStandard = Bt709 | Bt470bg | Rgb | Smpte170m | Iec61966_2_1

  /** `VideoTrackColorParams`. */
  datatype ColorParams = ColorParams(
    fullRange: bool,
    matrixCoefficients: Option<ColorStandard>,
    primaries: Option<ColorStandard>,
    transferCharacteristics: Option<ColorStandard>)

  /** Matrix coefficients and colour primaries share one table: 1, 5 and 6. */
  function MatrixOrPrimaries(index: int): Option<ColorStandard> {
    if index == 1 then Some(Bt709)
    else if index == 5 then Some(Bt470bg)
    else if index == 6 then Some(Smpte170m)
    else None
  }

  function Transfer(index: int): Option<ColorStandard> {
    if index == 1 then Some(Bt709)
    else if index == 6 then Some(Smpte170m)
    else if index == 13 then Some(Iec61966_2_1)
    else None
  }

  /** Reference tables: the code point of each standard, per parameter. */
  function MatrixOrPrimariesCode(s: ColorStandard): Option<int> {
    match s
    case Bt709 => Some(1)
    case Bt470bg => Some(5)
    case Smpte170m => Some(6)
    case _ => None
  }

  function TransferCode(s: ColorStandard): Option<int> {
    match s
    case Bt709 => Some(1)
    case Smpte170m => Some(6)
    case Iec61966_2_1 => Some(13)
    case _ => None
  }

  /** Each table and its reference agree in both directions; `rgb` is never produced. */
  lemma ColorTables(index: int, s: ColorStandard)
    ensures MatrixOrPrimaries(index) == Some(s) <==> MatrixOrPrimariesCode(s) == Some(index)
    ensures Transfer(index) == Some(s) <==> TransferCode(s) == Some(index)
    ensures MatrixOrPrimaries(index) != Some(Rgb) && Transfer(index) != Some(Rgb)
  {
  }

  /** The code points each table leaves unnamed. */
  lemma ColorTableDomains(index: int)
    ensures MatrixOrPrimaries(index).None? <==> index != 1 && index != 5 && index != 6
    ensures Transfer(index).None? <==> index != 1 && index != 6 && index != 13
    ensures MatrixOrPrimaries(index).Some? ==> MatrixOrPrimariesCode(MatrixOrPrimaries(index).value) == Some(index)
    ensures Transfer(index).Some? ==> TransferCode(Transfer(index).value) == Some(index)
  {
  }

  /**
   * `getIsoBmColrConfig`: nothing without a video sample entry, without a
   * `colr` box in it, or when that box carries an ICC profile; otherwise the
   * full-range flag and the three parameters through their tables.
   */
  function GetIsoBmColrConfig(trak: Box): (r: Option<ColorParams>)
    ensures r.Some? <==>
              GetStsdVideoConfig(trak).Some? && GetColrBox(GetStsdVideoConfig(trak).value).Some? &&
              GetColrBox(GetStsdVideoConfig(trak).value).value.colorType == TransferCharacteristics
    ensures r.Some? ==>
              var colr := GetColrBox(GetStsdVideoConfig(trak).value).value;
              && r.value.fullRange == colr.fullRangeFlag
              && (r.value.matrixCoefficients.Some? ==> MatrixOrPrimariesCode(r.value.matrixCoefficients.value) == Some(colr.matrixIndex))
              && (r.value.primaries.Some? ==> MatrixOrPrimariesCode(r.value.primaries.value) == Some(colr.primaries))
              && (r.value.transferCharacteristics.Some? ==> TransferCode(r.value.transferCharacteristics.value) == Some(colr.transfer))
              && (r.value.matrixCoefficients.None? <==> colr.matrixIndex != 1 && colr.matrixIndex != 5 && colr.matrixIndex != 6)
              && (r.value.primaries.None? <==> colr.primaries != 1 && colr.primaries != 5 && colr.primaries != 6)
              && (r.value.transferCharacteristics.None? <==> colr.transfer != 1 && colr.transfer != 6 && colr.transfer != 13)
  {
    match GetStsdVideoConfig(trak)
    case None => None
    case Some(sample) =>
      match GetColrBox(sample)
      case None => None
      case Some(colr) =>
        if colr.colorType != TransferCharacteristics then None
        else
          ColorTableDomains(colr.matrixIndex);
          ColorTableDomains(colr.primaries);
          ColorTableDomains(colr.transfer);
          Some(ColorParams(colr.fullRangeFlag, MatrixOrPrimaries(colr.matrixIndex),
                           MatrixOrPrimaries(colr.primaries), Transfer(colr.transfer)))
  }
}

=== FILE: header_properties.dfy ===
/**
 * Properties of the box header reader and the single-box decoder: header
 * round trips, the rewind on incomplete input, the void marker, the 64-bit
 * size, the `mdat` skip / partial / incomplete decision, and which bodies
 * are parsed as children.
 */
module HeaderProperties {
  import opened Wrappers
  import opened Cursor
  import opened IsoBox
  import opened IsoParser

  /* ---------- Encoding, the partner of the header reader ---------- */

  /** Big-endian encoding of `v` in `n` bytes. */
  function EncodeUint(v: nat, n: nat): (bs: seq<byte>)
    requires v < Pow256(n)
    ensures |bs| == n
  {
    if n == 0 then []
    else
      assert v / 256 < Pow256(n - 1);
      EncodeUint(v / 256, n - 1) + [(v % 256) as byte]
  }

  lemma {:induction false} UintRoundTrip(v: nat, n: nat)
    requires v < Pow256(n)
    ensures BigEndian(EncodeUint(v, n)) == v
    decreases n
  {
    if n > 0 {
      var bs := EncodeUint(v, n);
      assert bs[..n - 1] == EncodeUint(v / 256, n - 1);
      UintRoundTrip(v / 256, n - 1);
    }
  }

  /** A box header as section 4.2 of ISO/IEC 14496-12 lays it out: compact when the size fits in 32 bits, else size 1 plus a 64-bit size. */
  function EncodeHeader(boxType: seq<byte>, size: nat): (bs: seq<byte>)
    requires |boxType| == 4 && 2 <= size < Pow256(8)
  {
    if size < Pow256(4) then EncodeUint(size, 4) + boxType
    else EncodeUint(1, 4) + boxType + EncodeUint(size, 8)
  }

  lemma PeekOfPrefix(c: Cursor, at: nat, bs: seq<byte>)
    requires c.pos + at + |bs| <= |c.window|
    requires c.window[c.pos + at..c.pos + at + |bs|] == bs
    ensures c.Discard(at).Peek(|bs|) == bs
  {
    forall k | 0 <= k < |bs| ensures c.Discard(at).Peek(|bs|)[k] == bs[k] {
      assert c.window[c.pos + at..c.pos + at + |bs|][k] == c.window[c.pos + at + k];
    }
  }

  /** Reading an encoded header gives back its type and size and stops right after it. */
  lemma HeaderRoundTrip(boxType: seq<byte>, size: nat, rest: seq<byte>, start: nat, scr: bool)
    requires |boxType| == 4 && 2 <= size < Pow256(8)
    ensures var h := EncodeHeader(boxType, size);
            var r := ReadHeader(Cursor(h + rest, start, 0, scr));
            r.0 == BoxHeader(Latin1(boxType), size) && r.1 == Cursor(h + rest, start, |h|, scr)
  {
    var h := EncodeHeader(boxType, size);
    var c := Cursor(h + rest, start, 0, scr);
    if size < Pow256(4) {
      var sz := EncodeUint(size, 4);
      assert c.window[0..4] == sz;
      PeekOfPrefix(c, 0, sz);
      UintRoundTrip(size, 4);
      assert c.window[4..8] == boxType;
      PeekOfPrefix(c, 4, boxType);
    } else {
      var one := EncodeUint(1, 4);
      var sz := EncodeUint(size, 8);
      assert c.window[0..4] == one;
      PeekOfPrefix(c, 0, one);
      UintRoundTrip(1, 4);
      assert c.window[4..8] == boxType;
      PeekOfPrefix(c, 4, boxType);
      assert c.window[8..16] == sz;
      PeekOfPrefix(c, 8, sz);
      UintRoundTrip(size, 8);
    }
  }

  /* ---------- Single-box decoder ---------- */

  /**
   * Fewer than 4 bytes after the size field (12 when the size is 1): the
   * cursor is rewound to the box start and the result is `incomplete`, or
   * an error when incomplete boxes are not allowed.
   */
  lemma ShortHeaderRewinds(ctx: Context, c: Cursor, allowIncompleteBoxes: bool, parsedBoxes: seq<Box>)
    requires c.BytesRemaining() < 8 || (SizeField(c) == 1 && c.BytesRemaining() < 16)
    ensures var r := ProcessBox(ctx, c, allowIncompleteBoxes, parsedBoxes);
            && (allowIncompleteBoxes ==> r == Ok((Incomplete, c)))
            && (!allowIncompleteBoxes ==> r == Err(IncompleteBoxNotAllowed(c.BytesRemaining(), SizeField(c))))
  {
  }

  /** A size field of 0 is a void marker: 4 bytes consumed, no type read. */
  lemma VoidMarker(ctx: Context, c: Cursor, allowIncompleteBoxes: bool, parsedBoxes: seq<Box>)
    requires c.BytesRemaining() >= 8 && SizeField(c) == 0
    ensures ProcessBox(ctx, c, allowIncompleteBoxes, parsedBoxes) == Ok((Complete(VoidBox, 4, None), c.Discard(4)))
  {
  }

  /** The size the header declares: the 32-bit field, or the 64-bit field after the type when it is 1. */
  function DeclaredSize(c: Cursor): nat {
    if SizeField(c) == 1 then BigEndian(c.Discard(8).Peek(8)) else SizeField(c)
  }

  /** Length of the header: 16 bytes with a 64-bit size, else 8. */
  function HeaderLength(c: Cursor): nat { if SizeField(c) == 1 then 16 else 8 }

  /** Whether the header at `c` is complete in the buffered window and not a void marker. */
  predicate FullHeader(c: Cursor) {
    c.BytesRemaining() >= HeaderLength(c) && SizeField(c) != 0
  }

  /**
   * Whatever else happens, the decoder reports the declared size (from the
   * 64-bit field when the 32-bit one is 1) and the box's own offset.
   */
  lemma ReportsDeclaredSize(ctx: Context, c: Cursor, allowIncompleteBoxes: bool, parsedBoxes: seq<Box>)
    ensures var r := ProcessBox(ctx, c, allowIncompleteBoxes, parsedBoxes);
            && (r.Ok? && r.value.0.Complete? && r.value.0.box != VoidBox ==>
                  FullHeader(c) && r.value.0.size == DeclaredSize(c))
            && (r.Ok? && r.value.0.PartialMdat? ==>
                  FullHeader(c) && r.value.0.partial == PartialMdatBox(DeclaredSize(c), c.Offset()))
  {
    var (h, c1) := ReadHeader(c);
    if h.BoxHeader? && !(c.BytesRemaining() < h.boxSize) {
      var r := DecodeBox(ctx, c1, h.boxType, h.boxSize, c.Offset(), parsedBoxes);
    }
  }

  /** The type tag the header at `c` carries. */
  function TypeTag(c: Cursor): string { Latin1(c.Discard(4).Peek(4)) }

  /** The bytes that would be skipped over: the body after the header. */
  function BytesToSkip(c: Cursor): int { DeclaredSize(c) - HeaderLength(c) }

  /**
   * An `mdat` larger than the bytes buffered at its start is recorded as
   * skipped, with a seek to its end, exactly when skipping is allowed (video
   * data not needed or no tracks known, and the source can seek) and more
   * than 1,000,000 bytes would be skipped.
   */
  lemma MdatSkipRule(ctx: Context, c: Cursor, allowIncompleteBoxes: bool, parsedBoxes: seq<Box>)
    requires FullHeader(c) && TypeTag(c) == "mdat" && c.BytesRemaining() < DeclaredSize(c)
    ensures var r := ProcessBox(ctx, c, allowIncompleteBoxes, parsedBoxes);
            var skipped := Complete(MdatBox(DeclaredSize(c), c.Offset(), SamplesSkipped), DeclaredSize(c),
                                    Some(c.Offset() + DeclaredSize(c)));
            (r.Ok? && r.value.0 == skipped) <==>
              ShouldSkip(ctx, c, parsedBoxes) && BytesToSkip(c) > SkipThreshold
  {
    var (h, c1) := ReadHeader(c);
    assert h.BoxHeader?;
    var r := ProcessBox(ctx, c, allowIncompleteBoxes, parsedBoxes);
    if !ShouldSkip(ctx, c, parsedBoxes) {
      assert r == ParseMdatPartially(ctx, c1, h.boxSize, c.Offset(), parsedBoxes);
    }
  }

  /**
   * An oversized `mdat` that may not be skipped goes to partial parsing; a
   * skippable one at or under the threshold, and every other oversized box,
   * rewinds to the box start as `incomplete` (or an error when incomplete
   * boxes are not allowed).
   */
  lemma OversizedBoxRule(ctx: Context, c: Cursor, allowIncompleteBoxes: bool, parsedBoxes: seq<Box>)
    requires FullHeader(c) && c.BytesRemaining() < DeclaredSize(c)
    ensures var r := ProcessBox(ctx, c, allowIncompleteBoxes, parsedBoxes);
            && (TypeTag(c) == "mdat" && !ShouldSkip(ctx, c, parsedBoxes) ==>
                  r == ParseMdatPartially(ctx, c.Discard(HeaderLength(c)), DeclaredSize(c), c.Offset(), parsedBoxes))
            && (TypeTag(c) != "mdat" || (ShouldSkip(ctx, c, parsedBoxes) && BytesToSkip(c) <= SkipThreshold) ==>
                  r == IncompleteOrThrow(c, allowIncompleteBoxes, c.BytesRemaining(), DeclaredSize(c)))
  {
  }

  /** A complete header over a buffered box hands the body to the type dispatch, just past the header. */
  lemma BufferedDispatch(ctx: Context, c: Cursor, allowIncompleteBoxes: bool, parsedBoxes: seq<Box>)
    requires FullHeader(c) && c.BytesRemaining() >= DeclaredSize(c)
    ensures c.Offset() <= c.Discard(HeaderLength(c)).Offset()
    ensures ProcessBox(ctx, c, allowIncompleteBoxes, parsedBoxes)
         == DecodeBox(ctx, c.Discard(HeaderLength(c)), TypeTag(c), DeclaredSize(c), c.Offset(), parsedBoxes)
  {
    var (h, c1) := ReadHeader(c);
    assert c1 == c.Discard(HeaderLength(c));
    assert h == BoxHeader(TypeTag(c), DeclaredSize(c));
  }

  /**
   * A buffered box of a type with no decoder: its body is parsed as children
   * (incomplete boxes disallowed, ceiling = rest of the body) only for the
   * eight composite types; any other body is discarded whole, and a declared
   * size smaller than the header is an error.
   */
  lemma UnknownBoxBody(ctx: Context, c: Cursor, allowIncompleteBoxes: bool, parsedBoxes: seq<Box>)
    requires FullHeader(c) && c.BytesRemaining() >= DeclaredSize(c)
    requires TypeTag(c) !in LeafTypes && TypeTag(c) != "mebx" && TypeTag(c) != "mdat"
    ensures var r := ProcessBox(ctx, c, allowIncompleteBoxes, parsedBoxes);
            var c1 := c.Discard(HeaderLength(c));
            var body := DeclaredSize(c) - HeaderLength(c);
            && (TypeTag(c) in CompositeTypes ==>
                  match ParseIsoBaseMediaBoxes(ctx, c1, Some(body), false, [], None)
                  case Err(e) => r == Err(e)
                  case Ok((Suspended(_, _, _), _)) => r == Err(IncompleteChildren)
                  case Ok((Done(children), c2)) =>
                    r == Ok((Complete(RegularBox(TypeTag(c), DeclaredSize(c), c.Offset(), children), DeclaredSize(c), None), c2)))
            && (TypeTag(c) !in CompositeTypes && body < 0 ==> r == Err(BoxSizeTooBig(TypeTag(c))))
            && (TypeTag(c) !in CompositeTypes && body >= 0 ==>
                  r == Ok((Complete(RegularBox(TypeTag(c), DeclaredSize(c), c.Offset(), []), DeclaredSize(c), None),
                           c.Discard(DeclaredSize(c)))))
  {
    BufferedDispatch(ctx, c, allowIncompleteBoxes, parsedBoxes);
    DecodeUnknown(ctx, c.Discard(HeaderLength(c)), TypeTag(c), DeclaredSize(c), c.Offset(), parsedBoxes);
  }

  lemma DecodeUnknown(ctx: Context, c1: Cursor, boxType: string, boxSize: nat, fileOffset: nat, parsedBoxes: seq<Box>)
    requires fileOffset <= c1.Offset()
    requires boxType !in LeafTypes && boxType != "mebx" && boxType != "mdat"
    ensures DecodeBox(ctx, c1, boxType, boxSize, fileOffset, parsedBoxes)
         == match GetChildren(ctx, boxType, c1, boxSize - (c1.Offset() - fileOffset))
            case Err(e) => Err(e)
            case Ok((children, c2)) => Ok((Complete(RegularBox(boxType, boxSize, fileOffset, children), boxSize, None), c2))
  {
  }

  /** A seek is only ever requested by a skipped `mdat`, and only from a source that can serve ranges. */
  lemma SkipOnlyWithContentRange(ctx: Context, c: Cursor, allowIncompleteBoxes: bool, parsedBoxes: seq<Box>)
    ensures var r := ProcessBox(ctx, c, allowIncompleteBoxes, parsedBoxes);
            r.Ok? && r.value.0.Complete? && r.value.0.skipTo.Some? ==>
              c.supportsContentRange && r.value.0.box.MdatBox? && r.value.0.box.status == SamplesSkipped
  {
    var (h, c1) := ReadHeader(c);
    if h.BoxHeader? && !(c.BytesRemaining() < h.boxSize) {
      var r := DecodeBox(ctx, c1, h.boxType, h.boxSize, c.Offset(), parsedBoxes);
    }
  }

  /** With incomplete boxes disallowed the decoder never answers `incomplete`. */
  lemma NoIncompleteWhenDisallowed(ctx: Context, c: Cursor, parsedBoxes: seq<Box>)
    ensures var r := ProcessBox(ctx, c, false, parsedBoxes);
            r.Ok? ==> !r.value.0.Incomplete?
  {
    var (h, c1) := ReadHeader(c);
    if h.BoxHeader? && !(c.BytesRemaining() < h.boxSize) {
      var r := DecodeBox(ctx, c1, h.boxType, h.boxSize, c.Offset(), parsedBoxes);
    }
  }

  /**
   * A buffered box with one of the 23 field-decoder tags goes to its field
   * decoder with exactly its body bytes (none when the declared size is
   * below the header), at its own offset and declared size, and parsing
   * resumes right after the body: at the box end whenever the declared size
   * covers the header.
   */
  lemma LeafBody(ctx: Context, c: Cursor, allowIncompleteBoxes: bool, parsedBoxes: seq<Box>)
    requires FullHeader(c) && c.BytesRemaining() >= DeclaredSize(c) && TypeTag(c) in LeafTypes
    ensures var r := ProcessBox(ctx, c, allowIncompleteBoxes, parsedBoxes);
            var body := if DeclaredSize(c) >= HeaderLength(c) then DeclaredSize(c) - HeaderLength(c) else 0;
            var leaf := ctx.dec.leaf(TypeTag(c), c.Offset(), DeclaredSize(c), c.Discard(HeaderLength(c)).Peek(body));
            && r == Ok((Complete(leaf, DeclaredSize(c), None), c.Discard(HeaderLength(c) + body)))
            && (DeclaredSize(c) >= HeaderLength(c) ==> r.value.1.Offset() == c.Offset() + DeclaredSize(c))
  {
    BufferedDispatch(ctx, c, allowIncompleteBoxes, parsedBoxes);
    var c1 := c.Discard(HeaderLength(c));
    var body := if DeclaredSize(c) >= HeaderLength(c) then DeclaredSize(c) - HeaderLength(c) else 0;
    assert c1.Offset() - c.Offset() == HeaderLength(c);
    assert c1.Discard(body) == c.Discard(HeaderLength(c) + body);
  }

  /**
   * A buffered `mdat` is handed to `parseMdat` just past its header: a
   * `null` answer is the "Unexpected null" error, otherwise the result is a
   * complete `mdat` of the declared size and offset with the status
   * `parseMdat` reports, and parsing resumes after the bytes it read.
   */
  lemma BufferedMdat(ctx: Context, c: Cursor, allowIncompleteBoxes: bool, parsedBoxes: seq<Box>)
    requires FullHeader(c) && c.BytesRemaining() >= DeclaredSize(c) && TypeTag(c) == "mdat"
    ensures var r := ProcessBox(ctx, c, allowIncompleteBoxes, parsedBoxes);
            var c1 := c.Discard(HeaderLength(c));
            match ctx.dec.mdat(c1, DeclaredSize(c), c.Offset(), parsedBoxes)
            case None => r == Err(UnexpectedNull)
            case Some(step) =>
              r == Ok((Complete(MdatBox(DeclaredSize(c), c.Offset(), step.status), DeclaredSize(c), None),
                       c1.Discard(step.consumed)))
  {
    BufferedDispatch(ctx, c, allowIncompleteBoxes, parsedBoxes);
    assert "mdat" !in LeafTypes;
  }

  /* ---------- mebx ---------- */

  /**
   * `parseMebx`: 6 reserved bytes are skipped, the next two are the data
   * reference index, and the children are parsed with incomplete boxes
   * disallowed under a ceiling equal to the bytes consumed since the box
   * start (header, reserved bytes and index, so `offset` fixes it and the
   * declared size does not); an incomplete child parse is an error, a
   * complete one yields a `mebx` box of the given size and offset.
   */
  lemma MebxLayout(ctx: Context, c: Cursor, offset: nat, size: nat)
    requires offset <= c.Offset()
    ensures var r := ParseMebx(ctx, c, offset, size);
            var index := BigEndian(c.Discard(6).Peek(2));
            var c2 := c.Discard(8);
            var ceiling := c.Offset() + 8 - offset;
            match ParseIsoBaseMediaBoxes(ctx, c2, Some(ceiling), false, [], None)
            case Err(e) => r == Err(e)
            case Ok((Suspended(_, _, _), _)) => r == Err(IncompleteChildren)
            case Ok((Done(children), c3)) => r == Ok((MebxBox(size, offset, index, "mebx", children), c3))
  {
    assert c.Discard(6).Discard(2) == c.Discard(8);
  }

  /** A buffered box tagged `mebx` is decoded by `parseMebx` from just past its header, at its own offset and size. */
  lemma MebxDispatch(ctx: Context, c: Cursor, allowIncompleteBoxes: bool, parsedBoxes: seq<Box>)
    requires FullHeader(c) && c.BytesRemaining() >= DeclaredSize(c) && TypeTag(c) == "mebx"
    ensures var r := ProcessBox(ctx, c, allowIncompleteBoxes, parsedBoxes);
            match ParseMebx(ctx, c.Discard(HeaderLength(c)), c.Offset(), DeclaredSize(c))
            case Err(e) => r == Err(e)
            case Ok((box, c2)) => r == Ok((Complete(box, DeclaredSize(c), None), c2))
  {
    BufferedDispatch(ctx, c, allowIncompleteBoxes, parsedBoxes);
    assert "mebx" !in LeafTypes;
  }
}

=== FILE: io_synchronizer.dfy ===
/**
 * The decoder/encoder bookkeeping of `makeIoSynchronizer`: which inputs
 * have not been answered by an output yet, which of them are keyframes,
 * and how many outputs the consumer has not processed. Timestamps are
 * integers, so the `Math.floor` of the two getters is the identity.
 */
module IoSynchronizer {

  datatype State = State(
    lastInput: int,
    lastInputKeyframe: int,
    lastOutput: int,
    inputsSinceLastOutput: nat,
    inputs: seq<int>,
    keyframes: seq<int>,
    unprocessed: int)

  const Init := State(0, 0, 0, 0, [], [], 0)

  /** The timestamps of `xs` later than `t`, in order (the `filter` of the two getters). */
  function Above(xs: seq<int>, t: int): (r: seq<int>)
    ensures forall x :: x in r <==> x in xs && x > t
    ensures |r| <= |xs|
  {
    if |xs| == 0 then [] else (if xs[0] > t then [xs[0]] else []) + Above(xs[1..], t)
  }

  /** Reference count: how many timestamps of `xs` are later than `t`. */
  function CountAbove(xs: seq<int>, t: int): nat {
    if |xs| == 0 then 0 else (if xs[0] > t then 1 else 0) + CountAbove(xs[1..], t)
  }

  lemma {:induction false} AboveCount(xs: seq<int>, t: int)
    ensures |Above(xs, t)| == CountAbove(xs, t)
    decreases |xs|
  {
    if |xs| > 0 {
      AboveCount(xs[1..], t);
    }
  }

  lemma {:induction false} AboveIdempotent(xs: seq<int>, t: int)
    ensures Above(Above(xs, t), t) == Above(xs, t)
    decreases |xs|
  {
    if |xs| > 0 {
      AboveIdempotent(xs[1..], t);
      var h := if xs[0] > t then [xs[0]] else [];
      AboveAppend(h, Above(xs[1..], t), t);
    }
  }

  lemma {:induction false} AboveAppend(a: seq<int>, b: seq<int>, t: int)
    ensures Above(a + b, t) == Above(a, t) + Above(b, t)
    decreases |a|
  {
    if |a| > 0 {
      assert (a + b)[1..] == a[1..] + b;
      AboveAppend(a[1..], b, t);
    } else {
      assert a + b == b;
    }
  }

  /** Every pending timestamp is later than the last output: the state the getters leave behind. */
  predicate Pruned(s: State) {
    (forall x :: x in s.inputs ==> x > s.lastOutput) && (forall k :: k in s.keyframes ==> k > s.lastOutput)
  }

  /** `getUnemittedItems`: prunes the inputs answered by the last output and counts the rest. */
  function GetUnemittedItems(s: State): (r: (nat, State))
    ensures r.0 == CountAbove(s.inputs, s.lastOutput) && r.0 == |r.1.inputs|
    ensures r.1.inputs == Above(s.inputs, s.lastOutput)
    ensures forall x :: x in r.1.inputs <==> x in s.inputs && x > s.lastOutput
    ensures r.1 == s.(inputs := r.1.inputs)
  {
    AboveCount(s.inputs, s.lastOutput);
    var inputs := Above(s.inputs, s.lastOutput);
    (|inputs|, s.(inputs := inputs))
  }

  /** `getUnemittedKeyframes`: the same pruning rule applied to the keyframes. */
  function GetUnemittedKeyframes(s: State): (r: (nat, State))
    ensures r.0 == CountAbove(s.keyframes, s.lastOutput) && r.0 == |r.1.keyframes|
    ensures r.1.keyframes == Above(s.keyframes, s.lastOutput)
    ensures forall k :: k in r.1.keyframes <==> k in s.keyframes && k > s.lastOutput
    ensures r.1 == s.(keyframes := r.1.keyframes)
  {
    AboveCount(s.keyframes, s.lastOutput);
    var keyframes := Above(s.keyframes, s.lastOutput);
    (|keyframes|, s.(keyframes := keyframes))
  }

  /** Asking twice, with no event in between, gives the same count and leaves the same state. */
  lemma GettersIdempotent(s: State)
    ensures GetUnemittedItems(GetUnemittedItems(s).1) == GetUnemittedItems(s)
    ensures GetUnemittedKeyframes(GetUnemittedKeyframes(s).1) == GetUnemittedKeyframes(s)
  {
    AboveIdempotent(s.inputs, s.lastOutput);
    AboveIdempotent(s.keyframes, s.lastOutput);
  }

  /**
   * `printState`: its trace message is built whether or not it is logged,
   * and building it calls both getters, so it prunes both lists.
   */
  function PrintState(s: State): (r: State)
    ensures Pruned(r)
    ensures r.inputs == Above(s.inputs, s.lastOutput) && r.keyframes == Above(s.keyframes, s.lastOutput)
    ensures forall x :: x in r.inputs <==> x in s.inputs && x > s.lastOutput
    ensures forall k :: k in r.keyframes <==> k in s.keyframes && k > s.lastOutput
    ensures r.(inputs := s.inputs, keyframes := s.keyframes) == s
  {
    GetUnemittedKeyframes(GetUnemittedItems(s).1).1
  }

  /** `inputItem`: records an input (and a keyframe when it is one), then prints the state. */
  function InputItem(s: State, timestamp: int, keyFrame: bool): (r: State)
    ensures r.lastInput == timestamp
    ensures r.lastInputKeyframe == (if keyFrame then timestamp else s.lastInputKeyframe)
    ensures r.inputsSinceLastOutput == s.inputsSinceLastOutput + 1
    ensures r.lastOutput == s.lastOutput && r.unprocessed == s.unprocessed
    ensures r.inputs == Above(s.inputs + [timestamp], s.lastOutput)
    ensures r.keyframes == Above(if keyFrame then s.keyframes + [timestamp] else s.keyframes, s.lastOutput)
    ensures forall x :: x in r.inputs <==> (x in s.inputs || x == timestamp) && x > s.lastOutput
    ensures forall k :: k in r.keyframes <==> (k in s.keyframes || (keyFrame && k == timestamp)) && k > s.lastOutput
    ensures Pruned(r)
  {
    var s1 := s.(lastInput := timestamp);
    var s2 := if keyFrame then s1.(lastInputKeyframe := timestamp, keyframes := s1.keyframes + [timestamp]) else s1;
    var s3 := s2.(inputsSinceLastOutput := s2.inputsSinceLastOutput + 1, inputs := s2.inputs + [timestamp]);
    PrintState(s3)
  }

  /** `onOutput`: records the output, resets the input run and counts one more unprocessed output. */
  function OnOutput(s: State, timestamp: int): (r: State)
    ensures r.lastOutput == timestamp && r.inputsSinceLastOutput == 0 && r.unprocessed == s.unprocessed + 1
    ensures r.lastInput == s.lastInput && r.lastInputKeyframe == s.lastInputKeyframe
    ensures r.inputs == Above(s.inputs, timestamp) && r.keyframes == Above(s.keyframes, timestamp)
    ensures forall x :: x in r.inputs <==> x in s.inputs && x > timestamp
    ensures forall k :: k in r.keyframes <==> k in s.keyframes && k > timestamp
    ensures Pruned(r)
  {
    PrintState(s.(lastOutput := timestamp, inputsSinceLastOutput := 0, unprocessed := s.unprocessed + 1))
  }

  /** `onProcessed`: one output fewer awaits processing; nothing else changes. */
  function OnProcessed(s: State): (r: State)
    ensures r.unprocessed == s.unprocessed - 1
    ensures r.(unprocessed := s.unprocessed) == s
  {
    s.(unprocessed := s.unprocessed - 1)
  }

  /**
   * The condition `waitFor` waits for: at most `unemitted` inputs without an
   * output and at most `maxUnprocessed` outputs not yet processed. Its loops
   * stop as soon as the counts are no longer above the bounds, so a count
   * below a bound also satisfies it.
   */
  predicate WaitForSatisfied(s: State, unemitted: int, maxUnprocessed: int) {
    GetUnemittedItems(s).0 <= unemitted && s.unprocessed <= maxUnprocessed
  }

  /** The condition `waitForFinish` waits for: `waitFor` with both bounds 0. */
  predicate IsFinished(s: State) {
    WaitForSatisfied(s, 0, 0)
  }

  /**
   * `waitForFinish` resolves exactly when no input is unanswered and the
   * unprocessed count is not positive; a `processed` report that arrives
   * before its output leaves the count negative, and that also finishes.
   */
  lemma FinishedMeans(s: State)
    ensures IsFinished(s) <==> CountAbove(s.inputs, s.lastOutput) == 0 && s.unprocessed <= 0
    ensures IsFinished(OnProcessed(Init))
  {
  }

  /**
   * The count `waitFor` compares after an input: one more than before when
   * the input is later than the last output, the same otherwise.
   */
  lemma InputCountsOne(s: State, timestamp: int, keyFrame: bool)
    ensures GetUnemittedItems(InputItem(s, timestamp, keyFrame)).0
         == GetUnemittedItems(s).0 + (if timestamp > s.lastOutput then 1 else 0)
  {
    var r := InputItem(s, timestamp, keyFrame);
    AboveAppend(s.inputs, [timestamp], s.lastOutput);
    AboveIdempotent(s.inputs + [timestamp], s.lastOutput);
    AboveCount(s.inputs, s.lastOutput);
    assert Above([timestamp], s.lastOutput) == (if timestamp > s.lastOutput then [timestamp] else []);
  }

  /** Every pending keyframe is a pending input. */
  predicate KeyframesPending(s: State) {
    forall k :: k in s.keyframes ==> k in s.inputs
  }

  /** The invariant between events: both lists pruned, every pending keyframe a pending input. */
  predicate Consistent(s: State) { Pruned(s) && KeyframesPending(s) }

  /**
   * Every event and getter keeps the invariant. (A getter alone on an
   * unpruned state would not: the items getter prunes inputs but not
   * keyframes; it is the pruning inside `printState` that keeps the two
   * lists in step.)
   */
  lemma EventsKeepConsistent(s: State, timestamp: int, keyFrame: bool)
    requires Consistent(s)
    ensures Consistent(InputItem(s, timestamp, keyFrame))
    ensures Consistent(OnOutput(s, timestamp))
    ensures Consistent(OnProcessed(s))
    ensures Consistent(GetUnemittedItems(s).1) && Consistent(GetUnemittedKeyframes(s).1)
  {
    PrunedGettersChangeNothing(s);
  }

  /** Pruning the inputs alone can leave a keyframe without its input. */
  lemma ItemsGetterAloneSplitsLists()
    ensures var s := State(0, 0, 5, 0, [3], [3], 0);
            KeyframesPending(s) && !KeyframesPending(GetUnemittedItems(s).1)
  {
    var s := State(0, 0, 5, 0, [3], [3], 0);
    assert GetUnemittedItems(s).1.keyframes == [3];
    assert 3 !in GetUnemittedItems(s).1.inputs;
  }

  /** After the events, counting is free: the getters find nothing left to prune. */
  lemma PrunedGettersChangeNothing(s: State)
    requires Pruned(s)
    ensures GetUnemittedItems(s) == (|s.inputs|, s)
    ensures GetUnemittedKeyframes(s) == (|s.keyframes|, s)
  {
    AbovePruned(s.inputs, s.lastOutput);
    AbovePruned(s.keyframes, s.lastOutput);
  }

  lemma {:induction false} AbovePruned(xs: seq<int>, t: int)
    requires forall x :: x in xs ==> x > t
    ensures Above(xs, t) == xs
    decreases |xs|
  {
    if |xs| > 0 {
      assert xs[0] in xs;
      assert forall x :: x in xs[1..] ==> x in xs;
      AbovePruned(xs[1..], t);
      assert [xs[0]] + xs[1..] == xs;
    }
  }

  /**
   * An output no earlier than every pending input empties the queue; the
   * synchronizer is then finished exactly when the consumer had already
   * reported more outputs processed than it had been given, so that this
   * output brings the unprocessed count to zero or below.
   */
  lemma OutputDrainsQueue(s: State, timestamp: int)
    requires forall x :: x in s.inputs ==> x <= timestamp
    ensures GetUnemittedItems(OnOutput(s, timestamp)).0 == 0
    ensures IsFinished(OnOutput(s, timestamp)) <==> s.unprocessed < 0
  {
    var r := OnOutput(s, timestamp);
    NoneAbove(r.inputs, timestamp);
  }

  lemma {:induction false} NoneAbove(xs: seq<int>, t: int)
    requires forall x :: x in xs ==> x <= t
    ensures CountAbove(xs, t) == 0
    decreases |xs|
  {
    if |xs| > 0 {
      assert xs[0] in xs;
      assert forall x :: x in xs[1..] ==> x in xs;
      NoneAbove(xs[1..], t);
    }
  }

  /** From the initial state, one input answered by one processed output at the same timestamp finishes. */
  lemma OneRoundTripFinishes(timestamp: int, keyFrame: bool)
    ensures IsFinished(OnProcessed(OnOutput(InputItem(Init, timestamp, keyFrame), timestamp)))
  {
    var s := InputItem(Init, timestamp, keyFrame);
    OutputDrainsQueue(s, timestamp);
    var o := OnOutput(s, timestamp);
    PrunedGettersChangeNothing(o);
    PrunedGettersChangeNothing(OnProcessed(o));
  }
}

=== FILE: iso_box.dfy ===
/**
 * The ISO Base Media box tree (`IsoBaseMediaBox`): one variant per box the
 * parser distinguishes, plus the traversal helpers the track derivation uses.
 * Boxes whose decoded fields no property here depends on (ftyp, tkhd, stts,
 * ...) share the `LeafBox` variant.
 */
module IsoBox {
  import opened Wrappers
  import opened Cursor

  /** What happened to the sample payload of an `mdat` box. */
  datatype MdatStatus = SamplesProcessed | SamplesBuffered | SamplesSkipped

  /** The two kinds of `colr` box: parametric colour, or an embedded ICC profile. */
  datatype ColorType = TransferCharacteristics | IccProfile

  datatype Box =
    | VoidBox
    | MdatBox(boxSize: nat, fileOffset: nat, status: MdatStatus)
    | RegularBox(boxType: string, boxSize: nat, offset: nat, children: seq<Box>)
    | MebxBox(boxSize: nat, offset: nat, dataReferenceIndex: nat, format: string, children: seq<Box>)
    | MoovBox(boxSize: nat, offset: nat, children: seq<Box>)
    | TrakBox(boxSize: nat, offset: nat, children: seq<Box>)
    | MvhdBox(boxSize: nat, offset: nat, nextTrackId: int)
    | StsdBox(boxSize: nat, offset: nat, samples: seq<SampleEntry>)
    | AvccBox(privateData: seq<byte>, configurationString: string)
    | HvccBox(privateData: seq<byte>, configurationString: string)
    | Av1cBox(privateData: seq<byte>)
    | ColrBox(colorType: ColorType, fullRangeFlag: bool, matrixIndex: int, primaries: int, transfer: int)
    | LeafBox(boxType: string, boxSize: nat, offset: nat)

  /** An entry of a sample description (`stsd`) box, with the boxes nested in it. */
  datatype SampleEntry =
    | VideoSample(format: string, entryChildren: seq<Box>)
    | AudioSample(format: string, entryChildren: seq<Box>)

  /** The first box of `bs` satisfying `p`, as `Array.prototype.find` returns it. */
  function Find(bs: seq<Box>, p: Box -> bool): (r: Option<Box>)
    ensures r.Some? ==> r.value in bs && p(r.value)
    ensures r.None? <==> forall i :: 0 <= i < |bs| ==> !p(bs[i])
    ensures r.Some? ==> exists i :: 0 <= i < |bs| && bs[i] == r.value && forall j :: 0 <= j < i ==> !p(bs[j])
  {
    if |bs| == 0 then None
    else if p(bs[0]) then Some(bs[0])
    else
      var r := Find(bs[1..], p);
      assert r.Some? ==> exists i :: 0 <= i < |bs[1..]| && bs[1..][i] == r.value && forall j :: 0 <= j < i ==> !p(bs[1..][j]);
      assert r.Some? ==> exists i :: 1 <= i < |bs| && bs[i] == r.value && forall j :: 0 <= j < i ==> !p(bs[j]) by {
        if r.Some? {
          var i :| 0 <= i < |bs[1..]| && bs[1..][i] == r.value && forall j :: 0 <= j < i ==> !p(bs[1..][j]);
          assert bs[i + 1] == r.value;
          forall j | 0 <= j < i + 1 ensures !p(bs[j]) {
            if j > 0 { assert bs[j] == bs[1..][j - 1]; }
          }
        }
      }
      r
  }

  /** The boxes of `bs` that are not `mdat` boxes, in order. */
  function NonMdat(bs: seq<Box>): (r: seq<Box>)
    ensures |r| <= |bs|
    ensures forall b :: b in r <==> b in bs && !b.MdatBox?
  {
    if |bs| == 0 then [] else (if bs[0].MdatBox? then [] else [bs[0]]) + NonMdat(bs[1..])
  }

  /** Number of `mdat` boxes among `bs`. */
  function CountMdat(bs: seq<Box>): nat {
    if |bs| == 0 then 0 else (if bs[0].MdatBox? then 1 else 0) + CountMdat(bs[1..])
  }

  predicate HasMdat(bs: seq<Box>) { exists i :: 0 <= i < |bs| && bs[i].MdatBox? }

  /** `getMdatBox`: the first top-level `mdat` box. */
  function GetMdatBox(bs: seq<Box>): Option<Box> { Find(bs, (b: Box) => b.MdatBox?) }

  /** `getMoovBox`: the first top-level `moov` box. */
  function GetMoovBox(bs: seq<Box>): Option<Box> { Find(bs, (b: Box) => b.MoovBox?) }

  /** Children of a composite box; none for the others. */
  function Children(b: Box): seq<Box> {
    match b
    case RegularBox(_, _, _, ch) => ch
    case MebxBox(_, _, _, _, ch) => ch
    case MoovBox(_, _, ch) => ch
    case TrakBox(_, _, ch) => ch
    case _ => []
  }

  /** `getMvhdBox`: the movie header among the children of `moov`. */
  function GetMvhdBox(moov: Box): Option<Box> { Find(Children(moov), (b: Box) => b.MvhdBox?) }

  /** `getTraks`: the track boxes among the children of `moov`, in order. */
  function GetTraks(moov: Box): (r: seq<Box>)
    ensures forall t :: t in r <==> t in Children(moov) && t.TrakBox?
  {
    TrakBoxes(Children(moov))
  }

  function TrakBoxes(bs: seq<Box>): (r: seq<Box>)
    ensures forall t :: t in r <==> t in bs && t.TrakBox?
  {
    if |bs| == 0 then [] else (if bs[0].TrakBox? then [bs[0]] else []) + TrakBoxes(bs[1..])
  }

  /** The first regular box of the given type among `bs`. */
  function Child(bs: seq<Box>, boxType: string): Option<Box> {
    Find(bs, (b: Box) => b.RegularBox? && b.boxType == boxType)
  }

  /** `getStsdBox`: the sample description at trak > mdia > minf > stbl > stsd. */
  function GetStsdBox(trak: Box): Option<Box> {
    match Child(Children(trak), "mdia")
    case None => None
    case Some(mdia) =>
      match Child(Children(mdia), "minf")
      case None => None
      case Some(minf) =>
        match Child(Children(minf), "stbl")
        case None => None
        case Some(stbl) => Find(Children(stbl), (b: Box) => b.StsdBox?)
  }

  /** `getStsdVideoConfig`: the first video sample entry of the track's sample description. */
  function GetStsdVideoConfig(trak: Box): Option<SampleEntry> {
    match GetStsdBox(trak)
    case Some(StsdBox(_, _, samples)) => FirstVideoSample(samples)
    case _ => None
  }

  function FirstVideoSample(ss: seq<SampleEntry>): (r: Option<SampleEntry>)
    ensures r.Some? ==> r.value.VideoSample? && r.value in ss
    ensures r.None? ==> forall s :: s in ss ==> !s.VideoSample?
  {
    if |ss| == 0 then None else if ss[0].VideoSample? then Some(ss[0]) else FirstVideoSample(ss[1..])
  }

  /** Boxes nested in the track's video sample entry. */
  function VideoSampleChildren(trak: Box): seq<Box> {
    match GetStsdVideoConfig(trak)
    case Some(s) => s.entryChildren
    case None => []
  }

  function GetAvccBox(trak: Box): Option<Box> { Find(VideoSampleChildren(trak), (b: Box) => b.AvccBox?) }
  function GetHvccBox(trak: Box): Option<Box> { Find(VideoSampleChildren(trak), (b: Box) => b.HvccBox?) }
  function GetAv1CBox(trak: Box): Option<Box> { Find(VideoSampleChildren(trak), (b: Box) => b.Av1cBox?) }

  /** `getColrBox`: the colour box nested in a sample entry. */
  function GetColrBox(s: SampleEntry): Option<Box> { Find(s.entryChildren, (b: Box) => b.ColrBox?) }

  /** `trakBoxContainsVideo`: the track describes a video sample entry. */
  predicate TrakBoxContainsVideo(trak: Box) { GetStsdVideoConfig(trak).Some? }
}

=== FILE: parse_riff_box.dfy ===
/**
 * RIFF chunk dispatch (`parseRiffBox`): the chunks with their own decoder,
 * and the discard of every other chunk.
 */
module RiffChunks {
  import opened Cursor
  import opened Containers

  /**
   * The chunk decoders, given the chunk body (and, for `fmt` and `strf`,
   * the chunks parsed before). Each is taken to consume exactly the chunk's
   * `size` bytes.
   */
  datatype RiffDecoders = RiffDecoders(
    fmt: (seq<byte>, seq<RiffBox>) -> RiffBox,
    list: seq<byte> -> RiffBox,
    avih: seq<byte> -> RiffBox,
    strh: seq<byte> -> RiffBox,
    strf: (seq<byte>, seq<RiffBox>) -> RiffBox)

  /** The chunk ids that have a decoder of their own. */
  const DecodedIds: set<string> := {"fmt", "LIST", "avih", "strh", "strf"}

  function ParseRiffBox(dec: RiffDecoders, c: Cursor, size: nat, id: string, boxes: seq<RiffBox>): (r: (RiffBox, Cursor))
    ensures r.1 == c.Discard(size)
    ensures id !in DecodedIds ==> r.0 == RiffRegularBox(size, id)
    ensures id == "fmt" ==> r.0 == dec.fmt(c.Peek(size), boxes)
    ensures id == "LIST" ==> r.0 == dec.list(c.Peek(size))
    ensures id == "avih" ==> r.0 == dec.avih(c.Peek(size))
    ensures id == "strh" ==> r.0 == dec.strh(c.Peek(size))
    ensures id == "strf" ==> r.0 == dec.strf(c.Peek(size), boxes)
  {
    var body := c.Peek(size);
    var box :=
      if id == "fmt" then dec.fmt(body, boxes)
      else if id == "LIST" then dec.list(body)
      else if id == "avih" then dec.avih(body)
      else if id == "strh" then dec.strh(body)
      else if id == "strf" then dec.strf(body, boxes)
      else RiffRegularBox(size, id);
    (box, c.Discard(size))
  }

  /**
   * A chunk whose id has no decoder is recorded by id and size alone: the
   * result depends on nothing but those two, whatever the body holds and
   * whatever was parsed before, and parsing resumes right after the chunk.
   */
  lemma UnknownChunkIgnoresBody(dec: RiffDecoders, dec': RiffDecoders, c: Cursor, c': Cursor, size: nat, id: string,
                                boxes: seq<RiffBox>, boxes': seq<RiffBox>)
    requires id !in DecodedIds && c.Offset() == c'.Offset()
    ensures ParseRiffBox(dec, c, size, id, boxes).0 == ParseRiffBox(dec', c', size, id, boxes').0
    ensures ParseRiffBox(dec, c, size, id, boxes).1.Offset() == ParseRiffBox(dec', c', size, id, boxes').1.Offset()
  {
  }

  /**
   * Every chunk is decoded from its own `size` bytes alone: two cursors
   * holding the same chunk body give the same chunk, and both end right
   * after it.
   */
  lemma ChunkDependsOnBodyOnly(dec: RiffDecoders, c: Cursor, c': Cursor, size: nat, id: string, boxes: seq<RiffBox>)
    requires c.Peek(size) == c'.Peek(size)
    ensures ParseRiffBox(dec, c, size, id, boxes).0 == ParseRiffBox(dec, c', size, id, boxes).0
    ensures ParseRiffBox(dec, c, size, id, boxes).1.Offset() - c.Offset()
         == ParseRiffBox(dec, c', size, id, boxes).1.Offset() - c'.Offset()
  {
  }

  /** Only `fmt` and `strf` see the chunks parsed before them. */
  lemma OnlyFmtAndStrfSeeEarlierChunks(dec: RiffDecoders, c: Cursor, size: nat, id: string,
                                       boxes: seq<RiffBox>, boxes': seq<RiffBox>)
    requires id != "fmt" && id != "strf"
    ensures ParseRiffBox(dec, c, size, id, boxes) == ParseRiffBox(dec, c, size, id, boxes')
  {
  }
}

=== FILE: parse_video.dfy ===
/**
 * Container dispatch (`parseVideo`): reject an empty buffer, then try the
 * signatures in a fixed order. Only the ISO Base Media branch is modelled
 * through; RIFF and WebM parsing are outside this model and are recorded
 * as the branch taken.
 */
module ParseVideo {
  import opened Wrappers
  import opened Cursor
  import opened IsoBox
  import opened IsoParser
  import DriverProperties

  /** What the buffer's first bytes look like (the iterator's `isRiff`, `isIsoBaseMedia`, `isWebm`, `isMp3`). */
  datatype Signatures = Signatures(isRiff: bool, isIsoBaseMedia: bool, isWebm: bool, isMp3: bool)

  datatype Dispatch =
    | RiffParse
    | IsoParse(result: Parsed<ParseResult>)
    | WebmParse

  datatype VideoError = NoBytes | Mp3NotSupported | UnknownVideoFormat

  /** The resume state a top-level ISO parse starts from: no boxes, no ceiling, incomplete boxes allowed. */
  const TopLevel := Resume([], None, true, None, None)

  function ParseVideo(ctx: Context, c: Cursor, sig: Signatures): (r: Result<Dispatch, VideoError>)
    ensures c.BytesRemaining() == 0 ==> r == Err(NoBytes)
    ensures r == Ok(RiffParse) <==> c.BytesRemaining() != 0 && sig.isRiff
    ensures r.Ok? && r.value.IsoParse? <==> c.BytesRemaining() != 0 && !sig.isRiff && sig.isIsoBaseMedia
    ensures r == Ok(WebmParse) <==> c.BytesRemaining() != 0 && !sig.isRiff && !sig.isIsoBaseMedia && sig.isWebm
    ensures r == Err(Mp3NotSupported) <==>
              c.BytesRemaining() != 0 && !sig.isRiff && !sig.isIsoBaseMedia && !sig.isWebm && sig.isMp3
    ensures r.Ok? && r.value.IsoParse? ==> r.value.result == Continue(ctx, TopLevel, c)
  {
    if c.BytesRemaining() == 0 then Err(NoBytes)
    else if sig.isRiff then Ok(RiffParse)
    else if sig.isIsoBaseMedia then Ok(IsoParse(ParseIsoBaseMediaBoxes(ctx, c, None, true, [], None)))
    else if sig.isWebm then Ok(WebmParse)
    else if sig.isMp3 then Err(Mp3NotSupported)
    else Err(UnknownVideoFormat)
  }

  /**
   * The top-level ISO parse never fails with a protocol error: with no
   * ceiling an incomplete box suspends instead of throwing, no seek is
   * requested without range support, and without a partial `mdat` to
   * continue every iteration moves the cursor. Its boxes start empty, so
   * a suspension hands back exactly the boxes parsed so far.
   */
  lemma TopLevelParseHasNoProtocolErrors(ctx: Context, c: Cursor, sig: Signatures)
    ensures var r := ParseVideo(ctx, c, sig);
            r.Ok? && r.value.IsoParse? && r.value.result.Err? ==>
              !DriverProperties.ProtocolError(r.value.result.error)
  {
    DriverProperties.ParseErrors(ctx, c, None, true, [], None);
  }

  /**
   * With a finite ceiling the same first incomplete box is an error: the
   * top-level arguments are the ones under which the driver's incomplete
   * path suspends rather than throws.
   */
  lemma FiniteCeilingThrowsOnIncomplete(ctx: Context, c: Cursor, maxBytes: int)
    requires c.BytesRemaining() > 0 && maxBytes > 0
    requires ProcessBox(ctx, c, true, []) == Ok((Incomplete, c))
    ensures ParseIsoBaseMediaBoxes(ctx, c, Some(maxBytes), true, [], None) == Err(MaxBytesMustBeInfinity)
    ensures ParseIsoBaseMediaBoxes(ctx, c, None, true, [], None)
         == Ok((Suspended([], TopLevel, None), c))
  {
    assert GetMdatBox([]).None?;
    assert Step(ctx, c, true, [], None) == Ok((Incomplete, c));
    assert Iterate(ctx, c, Some(maxBytes), true, [], false, None) == Stop(Err(MaxBytesMustBeInfinity));
    assert Iterate(ctx, c, None, true, [], false, None) == Stop(Ok((Suspended([], TopLevel, None), c)));
    assert KeepParsing(c, c.Offset(), Some(maxBytes)) && KeepParsing(c, c.Offset(), None);
  }
}

=== FILE: process_box.dfy ===
/**
 * The incremental ISO Base Media box parser (`process-box.ts`, with
 * `parseMebx` from `stsd/mebx.ts`, which recurses into the same driver).
 *
 * `ProcessBox` decodes one box at the cursor; `ParseIsoBaseMediaBoxes`
 * drives it in a loop and owns the suspend / seek / resume protocol. The
 * JavaScript closures `continueParsing` are the `Resume` values here, and
 * `Continue` is what calling one does.
 */
module IsoParser {
  import opened Wrappers
  import opened Cursor
  import opened IsoBox
  import Tracks

  /** An unread `mdat` is only skipped by seeking when more than this many bytes would be skipped. */
  const SkipThreshold: nat := 1_000_000

  /** Box types whose body is parsed as a sequence of child boxes (`getChildren`). */
  const CompositeTypes: set<string> := {"mdia", "minf", "stbl", "moof", "dims", "wave", "traf", "stsb"}

  /** Box types handed to a dedicated field decoder (everything `processBox` dispatches except `mebx` and `mdat`). */
  const LeafTypes: set<string> := {
    "ftyp", "colr", "mvhd", "tkhd", "trun", "tfdt", "stsd", "stsz", "stco", "co64", "pasp", "stss",
    "ctts", "stsc", "moov", "trak", "stts", "avcC", "av1C", "hvcC", "tfhd", "mdhd", "esds"}

  /** What the sample-payload decoder (`parseMdat`) reports: the payload status and the bytes it read. */
  datatype MdatStep = MdatStep(status: MdatStatus, consumed: nat)

  /**
   * The decoders this model does not look inside: `leaf` builds the box of a
   * `LeafTypes` tag from (type, offset, declared size, body bytes); `mdat` is
   * `parseMdat` given the cursor after the header, the box size, its offset
   * and the boxes parsed so far, and may answer `null` (`None`).
   */
  datatype Decoders = Decoders(
    leaf: (string, nat, nat, seq<byte>) -> Box,
    mdat: (Cursor, nat, nat, seq<Box>) -> Option<MdatStep>)

  /** The parser options the core reads, with the decoders. */
  datatype Context = Context(canSkipVideoData: bool, dec: Decoders)

  datatype PartialMdatBox = PartialMdatBox(boxSize: nat, fileOffset: nat)

  /** Outcome of decoding one box (`BoxAndNext`). */
  datatype BoxAndNext =
    | Complete(box: Box, size: nat, skipTo: Option<nat>)
    | Incomplete
    | PartialMdat(partial: PartialMdatBox)

  /**
   * Everything a `continueParsing` closure captured: the boxes so far, the
   * partially read `mdat` to continue, whether incomplete boxes are allowed,
   * the byte ceiling (`None` is `Infinity`), and a seek the closure performs
   * before parsing again.
   */
  datatype Resume = Resume(
    boxes: seq<Box>,
    continueMdat: Option<PartialMdatBox>,
    allowIncompleteBoxes: bool,
    maxBytes: Option<int>,
    seekBeforeResume: Option<nat>)

  /** `ParseResult`: `done`, or `incomplete` with a way to continue and an optional seek request. */
  datatype ParseResult =
    | Done(boxes: seq<Box>)
    | Suspended(boxes: seq<Box>, resume: Resume, skipTo: Option<nat>)

  /** The errors the parser throws. `NoProgress` marks where the TypeScript loop would call `parseMdat` again with the same box size and offset while its cursor already stands at the box end. */
  datatype ParseError =
    | IncompleteBoxNotAllowed(expected: int, got: nat)
    | BoxSizeTooBig(boxType: string)
    | IncompleteChildren
    | UnexpectedNull
    | MaxBytesMustBeInfinity
    | SeekWithoutContentRange
    | UnexpectedMdatStatus
    | NoProgress

  type Parsed<T> = Result<(T, Cursor), ParseError>

  /* ---------- Box header (section 4.2 of ISO/IEC 14496-12, with the void-marker deviation) ---------- */

  datatype Header =
    | ShortHeader(sizeRaw: nat)
    | VoidHeader
    | BoxHeader(boxType: string, boxSize: nat)

  /** The 32-bit size field at the cursor. */
  function SizeField(c: Cursor): nat { BigEndian(c.Peek(4)) }

  /**
   * Reads a box header. Too few buffered bytes after the size field (4 for
   * the type, 12 with a 64-bit size) give `ShortHeader` and leave the cursor
   * where it was; a size of 0 is a 4-byte void marker whose type is not read;
   * a size of 1 takes the size from the 8 bytes after the type.
   */
  function ReadHeader(c: Cursor): (r: (Header, Cursor))
    ensures SameSource(c, r.1)
    ensures r.0.ShortHeader? <==> c.BytesRemaining() < 8 || (SizeField(c) == 1 && c.BytesRemaining() < 16)
    ensures r.0.ShortHeader? ==> r.1 == c && r.0.sizeRaw == SizeField(c)
    ensures r.0.VoidHeader? <==> !r.0.ShortHeader? && SizeField(c) == 0
    ensures r.0.VoidHeader? ==> r.1.pos == c.pos + 4
    ensures r.0.BoxHeader? ==>
              && SizeField(c) != 0
              && r.0.boxType == Latin1(c.Discard(4).Peek(4))
              && (SizeField(c) == 1 ==> r.0.boxSize == BigEndian(c.Discard(8).Peek(8)) && r.1.pos == c.pos + 16)
              && (SizeField(c) != 1 ==> r.0.boxSize == SizeField(c) && r.1.pos == c.pos + 8)
              && r.1.pos <= |c.window|
  {
    var (sizeRaw, c1) := c.ReadUint(4);
    if (sizeRaw == 1 && c1.BytesRemaining() < 12) || c1.BytesRemaining() < 4 then (ShortHeader(sizeRaw), c)
    else if sizeRaw == 0 then (VoidHeader, c1)
    else
      var (boxType, c2) := c1.ReadFourCC();
      if sizeRaw == 1 then
        var (largeSize, c3) := c2.ReadUint(8);
        (BoxHeader(boxType, largeSize), c3)
      else (BoxHeader(boxType, sizeRaw), c2)
  }

  /* ---------- Single-box decoder ---------- */

  /** The cursor rewound to the box start: `incomplete` when allowed, otherwise an error. */
  function IncompleteOrThrow(c: Cursor, allowIncompleteBoxes: bool, expected: int, got: nat): (r: Parsed<BoxAndNext>)
    ensures allowIncompleteBoxes <==> r.Ok?
    ensures r.Ok? ==> r.value == (Incomplete, c)
    ensures r.Err? ==> r.error == IncompleteBoxNotAllowed(expected, got)
  {
    if allowIncompleteBoxes then Ok((Incomplete, c)) else Err(IncompleteBoxNotAllowed(expected, got))
  }

  /** `parseMdatPartially`: decode what can be decoded of an `mdat` payload. */
  function ParseMdatPartially(ctx: Context, c: Cursor, boxSize: nat, fileOffset: nat, parsedBoxes: seq<Box>)
    : (r: Parsed<BoxAndNext>)
    ensures r.Ok? ==> SameSource(c, r.value.1) && r.value.1.pos >= c.pos
    ensures r.Err? <==> ctx.dec.mdat(c, boxSize, fileOffset, parsedBoxes).None?
    ensures r.Ok? ==>
              var step := ctx.dec.mdat(c, boxSize, fileOffset, parsedBoxes).value;
              && r.value.1.Offset() == c.Offset() + step.consumed
              && (r.value.0.Complete? <==>
                   step.status != SamplesSkipped && fileOffset + boxSize == r.value.1.Offset())
              && (r.value.0.Complete? ==>
                   r.value.0 == Complete(MdatBox(boxSize, fileOffset, step.status), boxSize, None))
              && (!r.value.0.Complete? ==> r.value.0 == PartialMdat(PartialMdatBox(boxSize, fileOffset)))
  {
    match ctx.dec.mdat(c, boxSize, fileOffset, parsedBoxes)
    case None => Err(UnexpectedNull)
    case Some(step) =>
      var c2 := c.Discard(step.consumed);
      if (step.status == SamplesProcessed || step.status == SamplesBuffered) && fileOffset + boxSize == c2.Offset() then
        Ok((Complete(MdatBox(boxSize, fileOffset, step.status), boxSize, None), c2))
      else
        Ok((PartialMdat(PartialMdatBox(boxSize, fileOffset)), c2))
  }

  /** The `mdat` skip rule: skipping is allowed when video data is not needed or no tracks are known, and the source can seek. */
  predicate ShouldSkip(ctx: Context, c: Cursor, parsedBoxes: seq<Box>) {
    (ctx.canSkipVideoData || !Tracks.HasIsoTracks(parsedBoxes)) && c.supportsContentRange
  }

  /**
   * A box larger than the bytes buffered at its start (`c` is the box start,
   * `c1` the cursor after its header).
   */
  function Oversized(ctx: Context, c: Cursor, c1: Cursor, boxType: string, boxSize: nat,
                     allowIncompleteBoxes: bool, parsedBoxes: seq<Box>): (r: Parsed<BoxAndNext>)
    requires SameSource(c, c1) && c1.pos >= c.pos
    ensures r.Ok? ==> SameSource(c, r.value.1) && r.value.1.pos >= c.pos
  {
    var fileOffset := c.Offset();
    if boxType == "mdat" then
      if ShouldSkip(ctx, c, parsedBoxes) then
        var skipTo := fileOffset + boxSize;
        var bytesToSkip := skipTo - c1.Offset();
        if bytesToSkip > SkipThreshold then
          Ok((Complete(MdatBox(boxSize, fileOffset, SamplesSkipped), boxSize, Some(skipTo)), c1))
        else IncompleteOrThrow(c, allowIncompleteBoxes, c.BytesRemaining(), boxSize)
      else ParseMdatPartially(ctx, c1, boxSize, fileOffset, parsedBoxes)
    else IncompleteOrThrow(c, allowIncompleteBoxes, c.BytesRemaining(), boxSize)
  }

  /** `processBox`: decode the box at the cursor. */
  function ProcessBox(ctx: Context, c: Cursor, allowIncompleteBoxes: bool, parsedBoxes: seq<Box>)
    : (r: Parsed<BoxAndNext>)
    ensures r.Ok? ==> SameSource(c, r.value.1) && r.value.1.pos >= c.pos
    ensures r.Ok? && r.value.0.Complete? ==> r.value.1.pos >= c.pos + 4
    ensures r.Ok? && r.value.0.Incomplete? ==> r.value.1 == c
    decreases c.Remaining(), 1
  {
    var fileOffset := c.Offset();
    var bytesRemaining := c.BytesRemaining();
    var (header, c1) := ReadHeader(c);
    match header
    case ShortHeader(sizeRaw) => IncompleteOrThrow(c, allowIncompleteBoxes, bytesRemaining, sizeRaw)
    case VoidHeader => Ok((Complete(VoidBox, 4, None), c1))
    case BoxHeader(boxType, boxSize) =>
      if bytesRemaining < boxSize then
        Oversized(ctx, c, c1, boxType, boxSize, allowIncompleteBoxes, parsedBoxes)
      else
        DecodeBox(ctx, c1, boxType, boxSize, fileOffset, parsedBoxes)
  }

  /** Dispatch on the type of a box whose whole extent is buffered; `c` is just past its header. */
  function DecodeBox(ctx: Context, c: Cursor, boxType: string, boxSize: nat, fileOffset: nat, parsedBoxes: seq<Box>)
    : (r: Parsed<BoxAndNext>)
    requires fileOffset <= c.Offset()
    ensures r.Ok? ==> SameSource(c, r.value.1) && r.value.1.pos >= c.pos
    ensures r.Ok? ==> r.value.0.Complete? && r.value.0.size == boxSize && r.value.0.skipTo.None?
    decreases c.Remaining(), 7
  {
    var headerSize := c.Offset() - fileOffset;
    if boxType in LeafTypes then
      var bodySize := if boxSize >= headerSize then boxSize - headerSize else 0;
      Ok((Complete(ctx.dec.leaf(boxType, fileOffset, boxSize, c.Peek(bodySize)), boxSize, None), c.Discard(bodySize)))
    else if boxType == "mebx" then
      var p :- ParseMebx(ctx, c, fileOffset, boxSize);
      Ok((Complete(p.0, boxSize, None), p.1))
    else if boxType == "mdat" then
      match ctx.dec.mdat(c, boxSize, fileOffset, parsedBoxes)
      case None => Err(UnexpectedNull)
      case Some(step) =>
        Ok((Complete(MdatBox(boxSize, fileOffset, step.status), boxSize, None), c.Discard(step.consumed)))
    else
      var p :- GetChildren(ctx, boxType, c, boxSize - headerSize);
      Ok((Complete(RegularBox(boxType, boxSize, fileOffset, p.0), boxSize, None), p.1))
  }

  /** `getChildren`: parse the body of a composite box as boxes, or discard it. */
  function GetChildren(ctx: Context, boxType: string, c: Cursor, bytesRemainingInBox: int): (r: Parsed<seq<Box>>)
    ensures r.Ok? ==> SameSource(c, r.value.1) && r.value.1.pos >= c.pos
    decreases c.Remaining(), 6
  {
    if boxType in CompositeTypes then
      var p :- ParseIsoBaseMediaBoxes(ctx, c, Some(bytesRemainingInBox), false, [], None);
      if p.0.Suspended? then Err(IncompleteChildren) else Ok((p.0.boxes, p.1))
    else if bytesRemainingInBox < 0 then Err(BoxSizeTooBig(boxType))
    else Ok(([], c.Discard(bytesRemainingInBox)))
  }

  /**
   * `parseMebx`: 6 reserved bytes, a 16-bit data reference index, then child
   * boxes with a ceiling equal to the bytes read since the box start.
   */
  function ParseMebx(ctx: Context, c: Cursor, offset: nat, size: nat): (r: Parsed<Box>)
    requires offset <= c.Offset()
    ensures r.Ok? ==> SameSource(c, r.value.1) && r.value.1.pos >= c.pos
    decreases c.Remaining(), 6
  {
    var c1 := c.Discard(6);
    var (dataReferenceIndex, c2) := c1.ReadUint(2);
    var p :- ParseIsoBaseMediaBoxes(ctx, c2, Some(c2.Offset() - offset), false, [], None);
    if p.0.Suspended? then Err(IncompleteChildren)
    else Ok((MebxBox(size, offset, dataReferenceIndex, "mebx", p.0.boxes), p.1))
  }

  /* ---------- Tree-building driver ---------- */

  /** `parseIsoBaseMediaBoxes`: `alreadyHasMdat` is decided once, from the boxes at entry. */
  function ParseIsoBaseMediaBoxes(ctx: Context, c: Cursor, maxBytes: Option<int>, allowIncompleteBoxes: bool,
                                  initialBoxes: seq<Box>, continueMdat: Option<PartialMdatBox>): (r: Parsed<ParseResult>)
    ensures r.Ok? ==> SameSource(c, r.value.1) && r.value.1.pos >= c.pos
    decreases c.Remaining(), 5
  {
    Loop(ctx, c, c.Offset(), maxBytes, allowIncompleteBoxes, initialBoxes,
         GetMdatBox(initialBoxes).Some?, continueMdat)
  }

  /** The loop condition: bytes are buffered and the ceiling is not reached. */
  predicate KeepParsing(c: Cursor, initialOffset: nat, maxBytes: Option<int>) {
    c.BytesRemaining() > 0 && (maxBytes.None? || c.Offset() - initialOffset < maxBytes.value)
  }

  /**
   * The driver loop. `boxes` is the structure's box list; the decoder sees
   * that same list (in `parseIsoBaseMediaBoxes` the array passed as `parsedBoxes` is the
   * one being appended to), so the skip rule sees boxes completed earlier in
   * the same pass.
   */
  function Loop(ctx: Context, c: Cursor, initialOffset: nat, maxBytes: Option<int>, allowIncompleteBoxes: bool,
                boxes: seq<Box>, alreadyHasMdat: bool, continueMdat: Option<PartialMdatBox>): (r: Parsed<ParseResult>)
    ensures r.Ok? ==> SameSource(c, r.value.1) && r.value.1.pos >= c.pos
    decreases c.Remaining(), 4
  {
    if !KeepParsing(c, initialOffset, maxBytes) then
      Ok((FinalStatus(ctx, c, maxBytes, boxes), c))
    else
      match Iterate(ctx, c, maxBytes, allowIncompleteBoxes, boxes, alreadyHasMdat, continueMdat)
      case Stop(outcome) => outcome
      case Again(appended, c2) =>
        Loop(ctx, c2, initialOffset, maxBytes, allowIncompleteBoxes, appended, alreadyHasMdat, continueMdat)
  }

  /** How one iteration of the loop ends: with the pass's outcome, or with the next box list and cursor. */
  datatype Next = Stop(outcome: Parsed<ParseResult>) | Again(boxes: seq<Box>, cursor: Cursor)

  /** One iteration of the loop body, after the loop condition has held. */
  function Iterate(ctx: Context, c: Cursor, maxBytes: Option<int>, allowIncompleteBoxes: bool,
                   boxes: seq<Box>, alreadyHasMdat: bool, continueMdat: Option<PartialMdatBox>): (r: Next)
    ensures r.Again? ==> SameSource(c, r.cursor) && r.cursor.pos > c.pos
    ensures r.Stop? && r.outcome.Ok? ==> SameSource(c, r.outcome.value.1) && r.outcome.value.1.pos >= c.pos
    decreases c.Remaining(), 3
  {
    match Step(ctx, c, allowIncompleteBoxes, boxes, continueMdat)
    case Err(e) => Stop(Err(e))
    case Ok((result, c2)) =>
      match result
      case Incomplete =>
        if maxBytes.Some? then Stop(Err(MaxBytesMustBeInfinity))
        else Stop(Ok((Suspended(boxes, Resume(boxes, None, allowIncompleteBoxes, maxBytes, None), None), c2)))
      case PartialMdat(partial) =>
        Stop(Ok((Suspended(boxes, Resume(boxes, Some(partial), allowIncompleteBoxes, maxBytes, None), None), c2)))
      case Complete(box, _, skipTo) =>
        if box.MdatBox? && alreadyHasMdat then
          var replaced := NonMdat(boxes) + [box];
          if box.status != SamplesProcessed then Stop(Err(UnexpectedMdatStatus))
          else Stop(Ok((FinalStatus(ctx, c2, maxBytes, replaced), c2)))
        else
          var appended := boxes + [box];
          if skipTo.Some? then
            if !c2.supportsContentRange then Stop(Err(SeekWithoutContentRange))
            else Stop(Ok((Suspended(appended, Resume(appended, None, allowIncompleteBoxes, maxBytes, None), skipTo), c2)))
          else if c2.BytesRemaining() < 0 then
            Stop(Ok((Suspended(appended, Resume(appended, None, allowIncompleteBoxes, maxBytes, None), None), c2)))
          else if c2.pos == c.pos then Stop(Err(NoProgress))
          else Again(appended, c2)
  }

  /** One loop iteration's decode: continue the partial `mdat`, or decode the next box. */
  function Step(ctx: Context, c: Cursor, allowIncompleteBoxes: bool, boxes: seq<Box>,
                continueMdat: Option<PartialMdatBox>): (r: Parsed<BoxAndNext>)
    ensures r.Ok? ==> SameSource(c, r.value.1) && r.value.1.pos >= c.pos
    ensures r.Ok? && r.value.0.Incomplete? ==> continueMdat.None? && r.value.1 == c
    ensures r.Ok? && r.value.0.Complete? && continueMdat.None? ==> r.value.1.pos >= c.pos + 4
    decreases c.Remaining(), 2
  {
    if continueMdat.Some? then
      ParseMdatPartially(ctx, c, continueMdat.value.boxSize, continueMdat.value.fileOffset, boxes)
    else ProcessBox(ctx, c, allowIncompleteBoxes, boxes)
  }

  /** Whether the first `mdat` still needs its payload: skipped but now needed, or buffered and needed. */
  predicate MdatSkippedButNeeded(ctx: Context, c: Cursor, m: Box) {
    m.MdatBox? && m.status == SamplesSkipped && !ctx.canSkipVideoData && c.supportsContentRange
  }

  predicate MdatBufferedButNeeded(ctx: Context, m: Box) {
    m.MdatBox? && m.status == SamplesBuffered && !ctx.canSkipVideoData
  }

  /** The check after the loop: `done`, unless the first `mdat` must be revisited. */
  function FinalStatus(ctx: Context, c: Cursor, maxBytes: Option<int>, boxes: seq<Box>): (r: ParseResult)
    ensures r.boxes == boxes
    ensures r.Done? <==>
              GetMdatBox(boxes).None? ||
              (!MdatSkippedButNeeded(ctx, c, GetMdatBox(boxes).value) && !MdatBufferedButNeeded(ctx, GetMdatBox(boxes).value))
    ensures r.Suspended? ==>
              var m := GetMdatBox(boxes).value;
              && r.resume == Resume(boxes, None, false, maxBytes, if m.status == SamplesBuffered then Some(m.fileOffset) else None)
              && r.skipTo == (if m.status == SamplesSkipped then Some(m.fileOffset) else None)
  {
    match GetMdatBox(boxes)
    case None => Done(boxes)
    case Some(m) =>
      var skipped := MdatSkippedButNeeded(ctx, c, m);
      var buffered := MdatBufferedButNeeded(ctx, m);
      if skipped || buffered then
        Suspended(boxes,
                  Resume(boxes, None, false, maxBytes, if buffered then Some(m.fileOffset) else None),
                  if skipped then Some(m.fileOffset) else None)
      else Done(boxes)
  }

  /** Calling a `continueParsing` closure with the cursor the caller has re-armed. */
  function Continue(ctx: Context, resume: Resume, c: Cursor): (r: Parsed<ParseResult>)
    ensures r.Ok? && resume.seekBeforeResume.None? ==> SameSource(c, r.value.1) && r.value.1.pos >= c.pos
  {
    var c' := if resume.seekBeforeResume.Some? then Seek(c, resume.seekBeforeResume.value) else c;
    ParseIsoBaseMediaBoxes(ctx, c', resume.maxBytes, resume.allowIncompleteBoxes, resume.boxes, resume.continueMdat)
  }
}

=== FILE: scenarios.dfy ===
/**
 * Concrete runs of the tree-building driver on small buffers: a header cut
 * short suspends without consuming anything, and the resumed pass over the
 * completed buffer finishes the box.
 */
module Scenarios {
  import opened Wrappers
  import opened Cursor
  import opened IsoBox
  import opened IsoParser

  /** Decoders that record leaf boxes by type and never decode `mdat` payloads. */
  const Ctx := Context(false, Decoders((t: string, off: nat, size: nat, body: seq<byte>) => LeafBox(t, size, off),
                                       (c: Cursor, size: nat, off: nat, bs: seq<Box>) => None))

  /** The bytes of an 8-byte `free` box. */
  const FreeBox: seq<byte> := [0, 0, 0, 8, 102, 114, 101, 101]

  lemma SizeEight()
    ensures BigEndian([0, 0, 0, 8]) == 8 && BigEndian([0, 0, 0, 0]) == 0
  {
    var z: seq<byte> := [0, 0, 0];
    var e: seq<byte> := [0, 0, 0, 8];
    var o: seq<byte> := [0, 0, 0, 0];
    assert e[..3] == z && o[..3] == z;
    assert z[..2] == [0, 0] && z[..2][..1] == [0] && z[..1][..0] == [];
  }

  lemma FreeType()
    ensures Latin1([102, 114, 101, 101]) == "free"
  {
    var s := Latin1([102, 114, 101, 101]);
    assert s[0] as int == 102 && s[1] as int == 114 && s[2] as int == 101 && s[3] as int == 101;
  }

  /** `free` is neither a leaf the decoders read nor a container: its body is skipped. */
  lemma FreeIsSkipped()
    ensures "free" !in LeafTypes && "free" !in CompositeTypes && "free" != "mebx" && "free" != "mdat"
  {
  }

  /** A buffered `free` box with an empty body decodes to a childless regular box. */
  lemma DecodeFree(c: Cursor, fileOffset: nat, parsedBoxes: seq<Box>)
    requires c.Offset() == fileOffset + 8
    ensures DecodeBox(Ctx, c, "free", 8, fileOffset, parsedBoxes)
         == Ok((Complete(RegularBox("free", 8, fileOffset, []), 8, None), c))
  {
    FreeIsSkipped();
    assert GetChildren(Ctx, "free", c, 0) == Ok(([], c.Discard(0)));
    assert c.Discard(0) == c;
  }

  /** The header of a `free` box buffered at the cursor. */
  lemma FreeHeader(c: Cursor)
    requires c.pos + 8 <= |c.window| && c.window[c.pos..c.pos + 8] == FreeBox
    ensures ReadHeader(c) == (BoxHeader("free", 8), c.Discard(8))
  {
    assert c.Peek(4) == [0, 0, 0, 8] by {
      forall k | 0 <= k < 4 ensures c.Peek(4)[k] == FreeBox[k] { assert c.window[c.pos + k] == FreeBox[k]; }
    }
    assert c.Discard(4).Peek(4) == [102, 114, 101, 101] by {
      forall k | 0 <= k < 4 ensures c.Discard(4).Peek(4)[k] == FreeBox[4 + k] { assert c.window[c.pos + 4 + k] == FreeBox[4 + k]; }
    }
    SizeEight();
    FreeType();
  }

  /** One iteration over a buffered `free` box appends it and moves past it. */
  lemma FreeBoxIteration(c: Cursor, boxes: seq<Box>)
    requires c.pos + 8 <= |c.window| && c.window[c.pos..c.pos + 8] == FreeBox
    ensures Iterate(Ctx, c, None, true, boxes, false, None)
         == Again(boxes + [RegularBox("free", 8, c.Offset(), [])], c.Discard(8))
  {
    var c1 := c.Discard(8);
    FreeHeader(c);
    DecodeFree(c1, c.Offset(), boxes);
    assert ProcessBox(Ctx, c, true, boxes) == Ok((Complete(RegularBox("free", 8, c.Offset(), []), 8, None), c1));
    assert Step(Ctx, c, true, boxes, None) == Ok((Complete(RegularBox("free", 8, c.Offset(), []), 8, None), c1));
  }

  /** With nothing left in the buffer and no `mdat` among the boxes, the loop is done. */
  lemma LoopAtEnd(c: Cursor, initialOffset: nat, boxes: seq<Box>)
    requires c.BytesRemaining() == 0 && GetMdatBox(boxes).None?
    ensures Loop(Ctx, c, initialOffset, None, true, boxes, false, None) == Ok((Done(boxes), c))
  {
  }

  /** An iteration that goes on leaves the loop to carry on from where it stopped. */
  lemma LoopStep(c: Cursor, initialOffset: nat, boxes: seq<Box>, next: seq<Box>, c2: Cursor)
    requires c.BytesRemaining() > 0
    requires Iterate(Ctx, c, None, true, boxes, false, None) == Again(next, c2)
    ensures Loop(Ctx, c, initialOffset, None, true, boxes, false, None)
         == Loop(Ctx, c2, initialOffset, None, true, next, false, None)
  {
    assert KeepParsing(c, initialOffset, None);
  }

  lemma NoMdatAmongOne(b: Box)
    requires !b.MdatBox?
    ensures GetMdatBox([b]).None?
  {
    assert [b][1..] == [];
  }

  /** Three bytes of a size field: the pass suspends with nothing consumed and no boxes. */
  lemma TruncatedHeaderSuspends()
    ensures var c := Cursor(FreeBox[..3], 0, 0, true);
            ParseIsoBaseMediaBoxes(Ctx, c, None, true, [], None)
              == Ok((Suspended([], Resume([], None, true, None, None), None), c))
  {
    var c := Cursor(FreeBox[..3], 0, 0, true);
    assert ReadHeader(c).0.ShortHeader?;
    assert Step(Ctx, c, true, [], None) == Ok((Incomplete, c));
    assert Iterate(Ctx, c, None, true, [], false, None)
        == Stop(Ok((Suspended([], Resume([], None, true, None, None), None), c)));
  }

  /** Resuming over the whole box: the driver completes the `free` box and is done. */
  lemma ResumedPassCompletes()
    ensures var c := Cursor(FreeBox, 0, 0, true);
            Continue(Ctx, Resume([], None, true, None, None), c)
              == Ok((Done([RegularBox("free", 8, 0, [])]), c.Discard(8)))
  {
    var c := Cursor(FreeBox, 0, 0, true);
    assert c.window[0..8] == FreeBox;
    LoneFreeBox(c, 0);
    assert GetMdatBox([]).None?;
  }

  /** A buffer ending with one `free` box at the cursor: one iteration, then the end. */
  lemma LoneFreeBox(c: Cursor, initialOffset: nat)
    requires c.pos + 8 == |c.window| && c.window[c.pos..c.pos + 8] == FreeBox
    ensures Loop(Ctx, c, initialOffset, None, true, [], false, None)
         == Ok((Done([RegularBox("free", 8, c.Offset(), [])]), c.Discard(8)))
  {
    var free := [RegularBox("free", 8, c.Offset(), [])];
    var c8 := c.Discard(8);
    FreeBoxIteration(c, []);
    assert [] + free == free;
    LoopStep(c, initialOffset, [], free, c8);
    NoMdatAmongOne(free[0]);
    LoopAtEnd(c8, initialOffset, free);
  }

  /** A void marker (size field 0) is a 4-byte box of its own, read before the box after it. */
  lemma VoidMarkerThenBox()
    ensures var c := Cursor([0, 0, 0, 0] + FreeBox, 0, 0, true);
            ParseIsoBaseMediaBoxes(Ctx, c, None, true, [], None)
              == Ok((Done([VoidBox, RegularBox("free", 8, 4, [])]), c.Discard(12)))
  {
    var c := Cursor([0, 0, 0, 0] + FreeBox, 0, 0, true);
    var c4 := c.Discard(4);
    var c12 := c.Discard(12);
    assert c.Peek(4) == [0, 0, 0, 0];
    SizeEight();
    assert ReadHeader(c) == (VoidHeader, c4);
    assert ProcessBox(Ctx, c, true, []) == Ok((Complete(VoidBox, 4, None), c4));
    assert Step(Ctx, c, true, [], None) == Ok((Complete(VoidBox, 4, None), c4));
    assert Iterate(Ctx, c, None, true, [], false, None) == Again([VoidBox], c4);
    LoopStep(c, 0, [], [VoidBox], c4);
    assert c4.window[4..12] == FreeBox;
    FreeBoxIteration(c4, [VoidBox]);
    assert [VoidBox] + [RegularBox("free", 8, 4, [])] == [VoidBox, RegularBox("free", 8, 4, [])];
    LoopStep(c4, 0, [VoidBox], [VoidBox, RegularBox("free", 8, 4, [])], c12);
    LoopAtEnd(c12, 0, [VoidBox, RegularBox("free", 8, 4, [])]);
    assert GetMdatBox([]).None?;
  }
}

=== FILE: supported_configs.dfy ===
/**
 * The converter's operation lists (`getSupportedConfigs`): for every video
 * and audio track, the ways it can be carried into the output container.
 * What the platform supports (`canCopy*`, `canReencode*`,
 * `getAvailable*Codecs`) is a parameter.
 */
module SupportedConfigs {
  import opened Tracks

  datatype VideoOperation = VideoCopy | VideoReencode(videoCodec: string) | VideoDrop

  datatype AudioOperation = AudioCopy | AudioReencode(audioCodec: string, bitrate: int) | AudioDrop

  datatype TrackOption<Op> = TrackOption(trackId: int, operations: seq<Op>)

  datatype SupportedConfigs = SupportedConfigs(
    videoTrackOptions: seq<TrackOption<VideoOperation>>,
    audioTrackOptions: seq<TrackOption<AudioOperation>>)

  /** The platform's answers, per output container. */
  datatype Capabilities = Capabilities(
    availableVideoCodecs: string -> seq<string>,
    availableAudioCodecs: string -> seq<string>,
    canCopyVideoTrack: (Track, string) -> bool,
    canReencodeVideoTrack: (string, Track) -> bool,
    canCopyAudioTrack: (Track, string) -> bool,
    canReencodeAudioTrack: (string, Track, int) -> bool)

  /* ---------- Reference definitions ---------- */

  /** The re-encode operations of a video track, one per accepted codec, in codec order. */
  function VideoReencodes(cap: Capabilities, codecs: seq<string>, track: Track): seq<VideoOperation> {
    if |codecs| == 0 then []
    else
      VideoReencodes(cap, codecs[..|codecs| - 1], track) +
      (if cap.canReencodeVideoTrack(codecs[|codecs| - 1], track) then [VideoReencode(codecs[|codecs| - 1])] else [])
  }

  function AudioReencodes(cap: Capabilities, codecs: seq<string>, track: Track, bitrate: int): seq<AudioOperation> {
    if |codecs| == 0 then []
    else
      AudioReencodes(cap, codecs[..|codecs| - 1], track, bitrate) +
      (if cap.canReencodeAudioTrack(codecs[|codecs| - 1], track, bitrate)
       then [AudioReencode(codecs[|codecs| - 1], bitrate)] else [])
  }

  /** A video track's list: copy if possible, the re-encodes, then drop. */
  function VideoOperations(cap: Capabilities, container: string, track: Track): seq<VideoOperation> {
    (if cap.canCopyVideoTrack(track, container) then [VideoCopy] else []) +
    VideoReencodes(cap, cap.availableVideoCodecs(container), track) + [VideoDrop]
  }

  function AudioOperations(cap: Capabilities, container: string, track: Track, bitrate: int): seq<AudioOperation> {
    (if cap.canCopyAudioTrack(track, container) then [AudioCopy] else []) +
    AudioReencodes(cap, cap.availableAudioCodecs(container), track, bitrate) + [AudioDrop]
  }

  /* ---------- The builder ---------- */

  /** One more codec extends the video re-encodes by that codec's re-encode, when accepted. */
  lemma VideoReencodesStep(cap: Capabilities, codecs: seq<string>, i: nat, track: Track)
    requires i < |codecs|
    ensures VideoReencodes(cap, codecs[..i + 1], track)
         == VideoReencodes(cap, codecs[..i], track) +
            (if cap.canReencodeVideoTrack(codecs[i], track) then [VideoReencode(codecs[i])] else [])
  {
    assert codecs[..i + 1][..i] == codecs[..i];
  }

  /** One more codec extends the audio re-encodes by that codec's re-encode, when accepted. */
  lemma AudioReencodesStep(cap: Capabilities, codecs: seq<string>, i: nat, track: Track, bitrate: int)
    requires i < |codecs|
    ensures AudioReencodes(cap, codecs[..i + 1], track, bitrate)
         == AudioReencodes(cap, codecs[..i], track, bitrate) +
            (if cap.canReencodeAudioTrack(codecs[i], track, bitrate) then [AudioReencode(codecs[i], bitrate)] else [])
  {
    assert codecs[..i + 1][..i] == codecs[..i];
  }

  /** The operations of one video track, built as the video branch of `getSupportedConfigs` builds them. */
  method VideoTrackOperations(cap: Capabilities, container: string, track: Track) returns (ops: seq<VideoOperation>)
    ensures ops == VideoOperations(cap, container, track)
  {
    var codecs := cap.availableVideoCodecs(container);
    ops := if cap.canCopyVideoTrack(track, container) then [VideoCopy] else [];
    var prefix := ops;
    var i := 0;
    while i < |codecs|
      invariant 0 <= i <= |codecs|
      invariant ops == prefix + VideoReencodes(cap, codecs[..i], track)
    {
      VideoReencodesStep(cap, codecs, i, track);
      if cap.canReencodeVideoTrack(codecs[i], track) {
        ops := ops + [VideoReencode(codecs[i])];
      }
      i := i + 1;
    }
    assert codecs[..|codecs|] == codecs;
    ops := ops + [VideoDrop];
  }

  /** The operations of one audio track, built as the audio branch of `getSupportedConfigs` builds them, with the bitrate on each re-encode. */
  method AudioTrackOperations(cap: Capabilities, container: string, track: Track, bitrate: int)
    returns (ops: seq<AudioOperation>)
    ensures ops == AudioOperations(cap, container, track, bitrate)
  {
    var codecs := cap.availableAudioCodecs(container);
    ops := if cap.canCopyAudioTrack(track, container) then [AudioCopy] else [];
    var prefix := ops;
    var i := 0;
    while i < |codecs|
      invariant 0 <= i <= |codecs|
      invariant ops == prefix + AudioReencodes(cap, codecs[..i], track, bitrate)
    {
      AudioReencodesStep(cap, codecs, i, track, bitrate);
      if cap.canReencodeAudioTrack(codecs[i], track, bitrate) {
        ops := ops + [AudioReencode(codecs[i], bitrate)];
      }
      i := i + 1;
    }
    assert codecs[..|codecs|] == codecs;
    ops := ops + [AudioDrop];
  }

  /** `getSupportedConfigs`: one option record per track, in track order, carrying the track's id. */
  method GetSupportedConfigs(cap: Capabilities, tracks: AllTracks, container: string, bitrate: int)
    returns (r: SupportedConfigs)
    ensures |r.videoTrackOptions| == |tracks.videoTracks|
    ensures forall i :: 0 <= i < |tracks.videoTracks| ==>
              r.videoTrackOptions[i] == TrackOption(tracks.videoTracks[i].trackId,
                                                    VideoOperations(cap, container, tracks.videoTracks[i]))
    ensures |r.audioTrackOptions| == |tracks.audioTracks|
    ensures forall i :: 0 <= i < |tracks.audioTracks| ==>
              r.audioTrackOptions[i] == TrackOption(tracks.audioTracks[i].trackId,
                                                    AudioOperations(cap, container, tracks.audioTracks[i], bitrate))
  {
    var videoTrackOptions: seq<TrackOption<VideoOperation>> := [];
    var i := 0;
    while i < |tracks.videoTracks|
      invariant 0 <= i <= |tracks.videoTracks|
      invariant |videoTrackOptions| == i
      invariant forall j :: 0 <= j < i ==>
                  videoTrackOptions[j] == TrackOption(tracks.videoTracks[j].trackId,
                                                      VideoOperations(cap, container, tracks.videoTracks[j]))
    {
      var ops := VideoTrackOperations(cap, container, tracks.videoTracks[i]);
      videoTrackOptions := videoTrackOptions + [TrackOption(tracks.videoTracks[i].trackId, ops)];
      i := i + 1;
    }
    var audioTrackOptions: seq<TrackOption<AudioOperation>> := [];
    i := 0;
    while i < |tracks.audioTracks|
      invariant 0 <= i <= |tracks.audioTracks|
      invariant |audioTrackOptions| == i
      invariant forall j :: 0 <= j < i ==>
                  audioTrackOptions[j] == TrackOption(tracks.audioTracks[j].trackId,
                                                      AudioOperations(cap, container, tracks.audioTracks[j], bitrate))
    {
      var ops := AudioTrackOperations(cap, container, tracks.audioTracks[i], bitrate);
      audioTrackOptions := audioTrackOptions + [TrackOption(tracks.audioTracks[i].trackId, ops)];
      i := i + 1;
    }
    r := SupportedConfigs(videoTrackOptions, audioTrackOptions);
  }

  /* ---------- The shape of an operation list ---------- */

  lemma {:induction false} VideoReencodesContents(cap: Capabilities, codecs: seq<string>, track: Track)
    ensures forall op :: op in VideoReencodes(cap, codecs, track) ==> op.VideoReencode?
    ensures forall c :: VideoReencode(c) in VideoReencodes(cap, codecs, track) <==>
                        c in codecs && cap.canReencodeVideoTrack(c, track)
    ensures |VideoReencodes(cap, codecs, track)| <= |codecs|
    decreases |codecs|
  {
    if |codecs| > 0 {
      var init := codecs[..|codecs| - 1];
      VideoReencodesContents(cap, init, track);
      assert codecs == init + [codecs[|codecs| - 1]];
      forall c ensures c in codecs <==> c in init || c == codecs[|codecs| - 1] {
        assert c in codecs <==> c in init + [codecs[|codecs| - 1]];
      }
    }
  }

  lemma {:induction false} AudioReencodesContents(cap: Capabilities, codecs: seq<string>, track: Track, bitrate: int)
    ensures forall op :: op in AudioReencodes(cap, codecs, track, bitrate) ==> op.AudioReencode? && op.bitrate == bitrate
    ensures forall c :: AudioReencode(c, bitrate) in AudioReencodes(cap, codecs, track, bitrate) <==>
                        c in codecs && cap.canReencodeAudioTrack(c, track, bitrate)
    decreases |codecs|
  {
    if |codecs| > 0 {
      var init := codecs[..|codecs| - 1];
      AudioReencodesContents(cap, init, track, bitrate);
      assert codecs == init + [codecs[|codecs| - 1]];
      forall c ensures c in codecs <==> c in init || c == codecs[|codecs| - 1] {
        assert c in codecs <==> c in init + [codecs[|codecs| - 1]];
      }
    }
  }

  /**
   * A video track's list starts with copy exactly when the track can be
   * copied, holds a re-encode for exactly the available codecs the
   * platform accepts, and ends with its only drop, so it is never empty.
   */
  lemma VideoOperationsShape(cap: Capabilities, container: string, track: Track)
    ensures var ops := VideoOperations(cap, container, track);
            && |ops| >= 1
            && ops[|ops| - 1] == VideoDrop
            && (ops[0] == VideoCopy <==> cap.canCopyVideoTrack(track, container))
            && (forall i :: 0 <= i < |ops| - 1 ==> ops[i] != VideoDrop)
            && (forall i :: 0 < i < |ops| ==> ops[i] != VideoCopy)
            && (forall c :: VideoReencode(c) in ops <==>
                            c in cap.availableVideoCodecs(container) && cap.canReencodeVideoTrack(c, track))
  {
    var copy := if cap.canCopyVideoTrack(track, container) then [VideoCopy] else [];
    var mid := VideoReencodes(cap, cap.availableVideoCodecs(container), track);
    VideoReencodesContents(cap, cap.availableVideoCodecs(container), track);
    var ops := copy + mid + [VideoDrop];
    if |copy| == 0 && |mid| > 0 { assert ops[0] == mid[0] && mid[0] in mid; }
    forall i | 0 <= i < |ops| - 1 ensures ops[i] != VideoDrop && (i > 0 ==> ops[i] != VideoCopy) {
      if i >= |copy| { assert ops[i] == mid[i - |copy|]; assert mid[i - |copy|] in mid; }
    }
    forall c ensures VideoReencode(c) in ops <==> VideoReencode(c) in mid {
      assert VideoReencode(c) in ops <==> VideoReencode(c) in copy || VideoReencode(c) in mid || VideoReencode(c) in [VideoDrop];
    }
  }

  /** The same shape for audio, every re-encode carrying the requested bitrate. */
  lemma AudioOperationsShape(cap: Capabilities, container: string, track: Track, bitrate: int)
    ensures var ops := AudioOperations(cap, container, track, bitrate);
            && |ops| >= 1
            && ops[|ops| - 1] == AudioDrop
            && (ops[0] == AudioCopy <==> cap.canCopyAudioTrack(track, container))
            && (forall i :: 0 <= i < |ops| - 1 ==> ops[i] != AudioDrop)
            && (forall i :: 0 < i < |ops| ==> ops[i] != AudioCopy)
            && (forall op :: op in ops && op.AudioReencode? ==> op.bitrate == bitrate)
            && (forall c :: AudioReencode(c, bitrate) in ops <==>
                            c in cap.availableAudioCodecs(container) && cap.canReencodeAudioTrack(c, track, bitrate))
  {
    var copy := if cap.canCopyAudioTrack(track, container) then [AudioCopy] else [];
    var mid := AudioReencodes(cap, cap.availableAudioCodecs(container), track, bitrate);
    AudioReencodesContents(cap, cap.availableAudioCodecs(container), track, bitrate);
    var ops := copy + mid + [AudioDrop];
    if |copy| == 0 && |mid| > 0 { assert ops[0] == mid[0] && mid[0] in mid; }
    forall i | 0 <= i < |ops| - 1 ensures ops[i] != AudioDrop && (i > 0 ==> ops[i] != AudioCopy) {
      if i >= |copy| { assert ops[i] == mid[i - |copy|]; assert mid[i - |copy|] in mid; }
    }
    forall op | op in ops && op.AudioReencode? ensures op.bitrate == bitrate {
      assert op in copy || op in mid || op in [AudioDrop];
    }
    forall c ensures AudioReencode(c, bitrate) in ops <==> AudioReencode(c, bitrate) in mid {
      assert AudioReencode(c, bitrate) in ops <==>
             AudioReencode(c, bitrate) in copy || AudioReencode(c, bitrate) in mid || AudioReencode(c, bitrate) in [AudioDrop];
    }
  }
}

=== FILE: wrappers.dfy ===
/** Failure-carrying datatypes shared by every module of the model. */
module Wrappers {

  /** A value that may be absent: JavaScript's `null`/`undefined`, or `Infinity` for an unbounded ceiling. */
  datatype Option<+T> = None | Some(value: T)

  /** Either a value or the error a JavaScript `throw` would have raised. */
  datatype Result<+T, +E> = Ok(value: T) | Err(error: E) {
    predicate IsFailure() { Err? }

    function PropagateFailure<U>(): Result<U, E>
      requires Err?
    {
      Err(error)
    }

    function Extract(): T
      requires Ok?
    {
      value
    }
  }
}
